=== FILE: README.md ===
# nutribee-web core, modelled in Dafny

This project models the logic of the nutritionist dashboard nutribee-web (TypeScript, React, Redux, axios, zod). Rendering, networking and library plumbing are left out.

What is modelled:

- **Clients store** (`clients_slice.dfy`). The Redux slice holding the loaded clients, the selected client, the fetch status and the last error. It is a class with one method per reducer.
- **In-memory backend** (`mock_api.dfy`). The mock table of client records, with URL-addressed `get`, `post`, `patch` and `delete`.
- **Tag-list editor** (`array_input.dfy`). It adds trimmed, distinct entries up to an optional maximum and removes entries by position.
- **HTTP error policy** (`http_policy.dfy`). The axios response-error interceptor:
  - a 401 signs the user out;
  - a missing response or a 5xx is retried with exponential backoff at most three times;
  - anything else becomes a normalised `ApiError`.
- **Calendar events** (`calendar_view.dfy`):
  - `HH:MM` clock arithmetic modulo one day;
  - the status colours;
  - one event per appointment.
- **Date picker** (`date_picker.dfy`):
  - month and decade stepping;
  - the month grid;
  - the `yyyy-MM-dd` text it emits.

  It rests on `dates.dfy`, which covers Gregorian month lengths, weekdays, the argument normalisation of `new Date(year, month)`, and date-fns `yyyy-MM-dd`.
- **Intake validator** (`client_form.dfy`). The zod client schema, read as a function from a filled-in form to its list of issues. It is paired with a declarative predicate that says what a valid form is.
- **Intake wizard** (`intake_wizard.dfy`):
  - the three-step add-client dialog and its collapsible panels;
  - the Next gate, which walks dotted field paths through the error tree react-hook-form builds from the validator's issues.
- **Clients page** (`clients_page.dfy`):
  - the case-insensitive search;
  - the initials;
  - the spinner / empty / rows choice;
  - the loading flag.
- **Error boundary** (`error_boundary.dfy`). Catching, resetting, resetting on new `resetKeys`, and what is rendered.

Shared modules:

- `wrappers.dfy`: `Option` and `Result`.
- `text.dfy`: the JavaScript string operations used:
  - `trim`, `split`, `join`, `includes` and `toLowerCase`;
  - `String(n)`, `padStart` and `parseInt`.
- `records.dfy`: JavaScript objects as maps, so `{...a, ...b}` is map union, plus `find` and `findIndex` by id.
- `sequences.dfy`: `filter` and subsequences.

Where the source changes state in place, the model does too:

- a class whose methods have `modifies` clauses;
- `ensures` clauses that give the whole new state in terms of the old one.

Pure code is modelled as functions with lemmas.

## Model

| member | source | states |
|---|---|---|
| Text.Trim | src/components/common/ArrayInput.tsx:53-55 | `trim()` yields a contiguous slice of its input, starting after the leading whitespace, with no whitespace at either end, and everything cut before and after it is whitespace |
| Text.TrimStart | src/components/common/ArrayInput.tsx:53 | the leading-whitespace cut: a suffix of the input, everything cut is whitespace, the rest does not start with whitespace |
| Text.TrimEnd | src/components/common/ArrayInput.tsx:53 | the trailing-whitespace cut: a prefix of the input, everything cut is whitespace, the rest does not end with whitespace |
| Text.TrimIdempotent | src/components/common/ArrayInput.tsx:53-55 | trimming an already trimmed text changes nothing |
| Text.TrimmedIsFixpoint | src/components/common/ArrayInput.tsx:53-54 | a text without whitespace at either end is left as it is by `trim()` |
| Text.TrimEmptyIffBlank | src/components/common/ArrayInput.tsx:53 | the trimmed text is empty exactly when the input is all whitespace |
| Text.Split | src/mocks/api.ts:21 | `split(sep)` gives at least one piece and no piece contains the separator |
| Text.JoinSplit | src/mocks/api.ts:21 | joining the pieces of a split with the separator gives back the original string |
| Text.Join | src/mocks/api.ts:21 | the inverse of the `split('/')` taken of request URLs: the pieces with the separator between them, which `JoinSplit` and `SplitJoin` prove undoes `Split` and is undone by it (the `join('')` of src/pages/Clients.tsx:37 is `ClientsPage.FirstChars`) |
| Text.SplitJoin | src/pages/Clients.tsx:37 | splitting a join of separator-free pieces gives back the pieces |
| Text.SplitAppend | src/pages/Clients.tsx:37 | splitting two texts joined by a separator gives the pieces of each, concatenated |
| Text.SplitNoSeparator | src/pages/Clients.tsx:37 | a text without the separator splits into itself alone |
| Text.SplitFirstPiece | src/mocks/api.ts:21 | the first piece of a split is a prefix of the string ending at the first separator or the end |
| Text.FirstPieceUnique | src/mocks/api.ts:21 | the piece before the first separator is determined by the text: two candidates are equal |
| Text.ToLower | src/pages/Clients.tsx:82-85 | `toLowerCase()` keeps the length and lowers each character |
| Text.ToLowerIdempotent | src/pages/Clients.tsx:82-85 | lowering twice is lowering once |
| Text.IncludesEmptyAndSelf | src/pages/Clients.tsx:82-85 | every string includes the empty string and itself |
| Text.Includes | src/pages/Clients.tsx:83-84 | `includes(sub)`: `sub` occurs at some position; `IncludesEmptyAndSelf` proves the empty text and the text itself are always included |
| Text.NatToString | src/mocks/api.ts:43 | `String(n)` is a non-empty digit string without a leading zero, one digit exactly for n < 10 |
| Text.NatToStringRoundTrip | src/mocks/api.ts:43 | the decimal spelling of n reads back as n |
| Text.NatToStringInjective | src/mocks/api.ts:43 | different numbers get different decimal spellings, so different ids |
| Text.PadZeros | src/components/appointments/CalendarView.tsx:103 | `padStart(width, '0')` prefixes just enough zeros to reach the width |
| Text.TwoDigits | src/components/appointments/CalendarView.tsx:103 | `String(n).padStart(2, '0')` for n < 100 is two digits reading back as n |
| Text.DigitPrefix | src/components/appointments/CalendarView.tsx:101 | the digits `parseInt` reads: the longest all-digit prefix |
| Text.ParseIntOfDigits | src/components/appointments/CalendarView.tsx:101 | `parseInt(s, 10)` of a non-empty digit string is its value |
| Text.ParseInt | src/components/appointments/CalendarView.tsx:101 | `Number.parseInt(s, 10)`: leading whitespace skipped, an optional sign, then the longest digit run, NaN (`None`) without a digit; `ParseIntOfDigits` proves every digit string reads back as its value and `InvalidClockIsUnreadable` that "NaN" is NaN |
| Text.DigitPrefixOfDigits | src/components/appointments/CalendarView.tsx:101 | `parseInt` reads the whole of an all-digit text |
| Sequences.Filter | src/store/slices/clientsSlice.ts:99 | `filter` returns a subsequence, in order, whose every element passes the test |
| Sequences.FilterCounts | src/store/slices/clientsSlice.ts:99 | an element passing the test is kept exactly as often as it occurs, any other is dropped |
| Sequences.FilterKeepsAll | src/pages/Clients.tsx:82-85 | a test every element passes keeps the whole sequence |
| Sequences.SubsequenceLength | src/pages/Clients.tsx:82-85 | a filtered list is never longer than the original |
| Sequences.FilterSameTest | src/pages/Clients.tsx:82-85 | two tests that agree on every element keep the same elements |
| Sequences.RemoveAt | src/mocks/api.ts:100 | `splice(i, 1)` drops position i; earlier elements stay, later ones move down by one |
| Records.Get | src/mocks/api.ts:22 | reading an absent property gives `undefined` |
| Records.Spread | src/mocks/api.ts:72-76 | `{...base, ...over}` has the keys of both, `over` winning on a clash |
| Records.FirstIndexWithId | src/mocks/api.ts:66 | `findIndex` by id: -1 or the first index holding the id, no earlier index holding it |
| Records.FirstIndexIsUnique | src/mocks/api.ts:66 | an index holding the id with no earlier one holding it is the `findIndex` result |
| Records.FindIndex | src/store/slices/clientsSlice.ts:89 | the front-to-back scan returns exactly that first index or -1 |
| Records.FindById | src/mocks/api.ts:22 | `find` by id: a record exactly when one holds the id, and then the first such record |
| ClientsSlice.RejectionError | src/store/slices/clientsSlice.ts:77 | the rejection message, or 'Failed to fetch clients' when absent or empty; never empty |
| ClientsSlice.ReplaceFirstWithId | src/store/slices/clientsSlice.ts:89-92 | the update keeps the length, replaces only the first item with the payload's id, changes nothing without a match |
| ClientsSlice.WithoutIdKeepsOthers | src/store/slices/clientsSlice.ts:99 | delete keeps every other item in order and as often as before, and removes every item with the id |
| ClientsSlice.WithoutId | src/store/slices/clientsSlice.ts:99 | `items.filter(c => c.id !== id)`; `WithoutIdKeepsOthers` proves it an in-order subsequence with no item of the id and every other item as often as before |
| ClientsSlice.SelectClientById | src/store/slices/clientsSlice.ts:111-112 | the first loaded client with the id, present exactly when one has it |
| ClientsSlice.ClientsStore.constructor | src/store/slices/clientsSlice.ts:14-19 | initially no items, nothing selected, status idle, no error |
| ClientsSlice.ClientsStore.SetSelectedClient | src/store/slices/clientsSlice.ts:58-60 | changes only the selected client |
| ClientsSlice.ClientsStore.ClearError | src/store/slices/clientsSlice.ts:61-63 | changes only the error, to none |
| ClientsSlice.ClientsStore.FetchPending | src/store/slices/clientsSlice.ts:68-70 | status becomes loading, nothing else changes |
| ClientsSlice.ClientsStore.FetchFulfilled | src/store/slices/clientsSlice.ts:71-74 | status succeeded, items replaced by the payload, error untouched |
| ClientsSlice.ClientsStore.FetchRejected | src/store/slices/clientsSlice.ts:75-78 | status failed, error set to the rejection message, items untouched |
| ClientsSlice.ClientsStore.FetchByIdFulfilled | src/store/slices/clientsSlice.ts:80-82 | the fetched client becomes the selected one |
| ClientsSlice.ClientsStore.CreateFulfilled | src/store/slices/clientsSlice.ts:84-86 | the payload is appended; earlier items unchanged |
| ClientsSlice.ClientsStore.UpdateFulfilled | src/store/slices/clientsSlice.ts:88-96 | items become the first-match replacement; the selected client is replaced exactly when its id matches |
| ClientsSlice.ClientsStore.DeleteFulfilled | src/store/slices/clientsSlice.ts:98-103 | items without the id; the selection is cleared exactly when its id matches |
| MockApi.UrlId | src/mocks/api.ts:20-21 | the id of a `/clients/` URL is the text up to the next '/' or the end, without '/' |
| MockApi.UrlIdRoundTrip | src/mocks/api.ts:20-21 | `/clients/<id>` and `/clients/<id>/<rest>` both read back as the id |
| MockApi.NewClient | src/mocks/api.ts:41-48 | the posted fields plus id String(length + 1), `createdAt` and `updatedAt` from two separate clock readings, empty measurements and goals, which win over posted fields |
| MockApi.Merged | src/mocks/api.ts:72-76 | stored fields overridden by the patch, with a new `updatedAt` |
| MockApi.NumberedTableStaysDistinct | src/mocks/api.ts:43-50 | in a table only ever appended to, ids are pairwise distinct and `post` keeps them numbered |
| MockApi.PostCanReuseAnId | src/mocks/api.ts:43 | when the next number is already in the table, lookups by it find the older record |
| MockApi.DeleteThenPostDuplicates | src/mocks/api.ts:43 | deleting "1" from "1","2" and posting allocates "2" a second time |
| MockApi.ClientTable.constructor | src/mocks/api.ts:4 | the table starts from the seeded records |
| MockApi.ClientTable.Get | src/mocks/api.ts:10-35 | the whole table, the first record with the id or 'Client not found', or 'Endpoint not found'; the table is unchanged |
| MockApi.ClientTable.Post | src/mocks/api.ts:37-59 | appends exactly the new record and returns it; another URL fails and changes nothing |
| MockApi.ClientTable.Patch | src/mocks/api.ts:61-87 | writes the merged record at the first matching index only; a missing id or other URL fails and changes nothing |
| MockApi.ClientTable.Delete | src/mocks/api.ts:89-105 | removes exactly the first record with the id, keeping order; a missing id or other URL fails and changes nothing |
| ArrayInput.ButtonMatchesGuard | src/components/common/ArrayInput.tsx:97 | the Add button is disabled exactly when the handler refuses, except maxItems 0: "no limit" to the handler, "full" to the button |
| ArrayInput.NoLimit | src/components/common/ArrayInput.tsx:53 | `!maxItems`: true for no maximum and for a maximum of 0 |
| ArrayInput.AddAllowed | src/components/common/ArrayInput.tsx:53 | the handler's guard: a non-blank trimmed text and room below the maximum; `TryAdd` appends exactly when it holds and the text is not listed |
| ArrayInput.AddDisabled | src/components/common/ArrayInput.tsx:97 | the button's `disabled`: a blank text, or a given maximum reached; `ButtonMatchesGuard` proves it the negation of `AddAllowed` except for a maximum of 0 |
| ArrayInput.TryAdd | src/components/common/ArrayInput.tsx:52-61 | appends exactly when the trimmed text is non-empty, within a positive maximum and not listed; appends the trimmed text; keeps the list well formed and within the maximum |
| ArrayInput.AddDuplicateIsRejected | src/components/common/ArrayInput.tsx:54 | text already listed once trimmed is never added |
| ArrayInput.WithoutIndex | src/components/common/ArrayInput.tsx:64 | drops exactly position i keeping order; an out-of-range i drops nothing |
| ArrayInput.RemovePreservesWellFormed | src/components/common/ArrayInput.tsx:63-67 | removal keeps entries non-empty, trimmed and distinct |
| ArrayInput.TagListInput.constructor | src/components/common/ArrayInput.tsx:44-45 | no items, empty text, nothing pushed to the form |
| ArrayInput.TagListInput.Type | src/components/common/ArrayInput.tsx:86 | typing sets the text only |
| ArrayInput.TagListInput.AddItem | src/components/common/ArrayInput.tsx:52-61 | on success items become the appended list, the text is cleared and the form gets the list; otherwise nothing changes |
| ArrayInput.TagListInput.RemoveItem | src/components/common/ArrayInput.tsx:63-67 | items lose position i and the form gets the new list, even for an out-of-range i |
| ArrayInput.TagListInput.KeyDown | src/components/common/ArrayInput.tsx:69-74 | Enter is prevented and adds exactly as the button does; other keys change nothing |
| ArrayInput.TagListInput.ButtonDisabled | src/components/common/ArrayInput.tsx:97 | the Add button's `disabled` for the current items, text and maximum |
| HttpPolicy.RetryStep | src/lib/axios.ts:111-117 | the raised counter; a retry exactly while the old counter is below 3, after 1000 * 2^(n-1) ms; otherwise the error is rethrown |
| HttpPolicy.ShouldRetry | src/lib/axios.ts:100-102 | no response, or a status from 500 to 599; `Decide` proves a retry happens exactly for these with the counter below 3 |
| HttpPolicy.Normalise | src/lib/axios.ts:89-94 | server message, code and status where sent; 'An unexpected error occurred', 'UNKNOWN_ERROR' and 500 otherwise |
| HttpPolicy.Decide | src/lib/axios.ts:62-96 | sign-out exactly for a 401 with counter 0; retry exactly for a retryable failure with counter below 3; TypeError exactly for a 401 without config; normalised error exactly for a non-retryable failure not caught by the 401 branch |
| HttpPolicy.UnauthorisedSignsOut | src/lib/axios.ts:62-82 | a first-attempt 401 signs out whether refresh is enabled or not, because the refresh always throws |
| HttpPolicy.UnauthorisedAfterRetryIsNormalised | src/lib/axios.ts:62-96 | a 401 on a retried request is neither re-authenticated nor retried but rejected as an ApiError with status 401 |
| HttpPolicy.RetryWithoutConfigRethrows | src/lib/axios.ts:104-109 | a retryable failure without request config is rethrown unchanged |
| HttpPolicy.NormalisedKeepsStatus | src/lib/axios.ts:85-94 | a normalised error always had a response, so its status is the response's and never the default 500 |
| HttpPolicy.Replay | src/lib/axios.ts:104-121 | over repeated failures at most 3 - retry delays are waited, the i-th being 1000 * 2^(retry + i) ms |
| HttpPolicy.BackoffSchedule | src/lib/axios.ts:111-117 | four retryable failures wait 1000, 2000 and 4000 ms and then give up |
| HttpPolicy.RequestConfig.constructor | src/lib/axios.ts:60 | a request starts with its retry counter unset (0) |
| HttpPolicy.Session.constructor | src/lib/axios.ts:74-80 | the stored token and location the interceptor may change |
| HttpPolicy.RetryRequest | src/lib/axios.ts:104-122 | the outcome is the retry step of the old counter and the counter is raised in place even when giving up |
| HttpPolicy.OnResponseError | src/lib/axios.ts:60-97 | carries out the decision: on sign-out the token is removed and the location is '/login', otherwise both unchanged; the counter rises exactly when a retryable failure goes to `retryRequest` |
| Dates.DaysInMonth | src/components/common/DatePicker.tsx:28 | 28-31 days: February 29 exactly in leap years, April, June, September, November 30, the rest 31 |
| Dates.IsLeapYear | src/components/common/DatePicker.tsx:28 | the Gregorian rule: divisible by 4, and not by 100 unless by 400; `DaysInMonth` gives February 29 days exactly then |
| Dates.DaysBeforeNextMonth | src/components/common/DatePicker.tsx:29 | the days before month m + 1 are those before m plus m's length |
| Dates.YearLength | src/components/common/DatePicker.tsx:29 | a year has 366 days if leap, else 365 |
| Dates.LeapYearsStep | src/components/common/DatePicker.tsx:29 | the leap-year count rises by one exactly past a leap year |
| Dates.DayNumber | src/components/common/DatePicker.tsx:29 | days from 1 January of year 0; `DayNumberOfNextMonth` proves consecutive months start one month length apart |
| Dates.Weekday | src/components/common/DatePicker.tsx:29 | `getDay()` is between 0 (Sunday) and 6 |
| Dates.KnownWeekdays | src/components/common/DatePicker.tsx:29 | 1 January 1970 is a Thursday and 1 January 2000 a Saturday |
| Dates.NextMonth | src/components/common/DatePicker.tsx:51 | the month after December is January of the next year, otherwise the next month |
| Dates.DayNumberOfNextMonth | src/components/common/DatePicker.tsx:28-29 | the next month's first day comes exactly this month's length after this month's |
| Dates.FirstWeekdayOfNextMonth | src/components/common/DatePicker.tsx:28-29 | the next month's first weekday is this month's moved on by its length, mod 7 |
| Dates.FullYearArg | src/components/common/DatePicker.tsx:63 | `new Date(y, ...)` reads years 0-99 as 1900-1999 and others as given |
| Dates.MonthStart | src/components/common/DatePicker.tsx:46-52 | `new Date(year, month)` lands on month 0-11 with 12 * year + month preserved |
| Dates.LastDayOfMonth | src/components/common/DatePicker.tsx:28 | day 0 of the next month is this month's length |
| Dates.EraYear | src/components/common/DatePicker.tsx:69 | `yyyy` prints years from 1 as themselves and earlier years as their era year, never 0 |
| Dates.FormatIsoDate | src/components/common/DatePicker.tsx:69 | `yyyy-MM-dd` has its dashes 6 and 3 from the end, digits between, length 10 for years below 10000 |
| Dates.FormatIsoDateRoundTrip | src/components/common/DatePicker.tsx:69 | the text reads back as the era year, the month counted from 1 and the day |
| Dates.FormatIsoDateInjective | src/components/common/DatePicker.tsx:69 | different days of one month give different texts |
| Dates.ParseIsoDate | src/components/common/DatePicker.tsx:69 | reads `yyyy-MM-dd` back into three numbers; `FormatIsoDateRoundTrip` proves it inverts `FormatIsoDate` |
| CalendarView.FormatClock | src/components/appointments/CalendarView.tsx:103 | a minute of the day prints as `HH:MM`, hour below 24 and minute below 60 |
| CalendarView.ClockParts | src/components/appointments/CalendarView.tsx:100-101 | the hour and minute read by `split(':')` and `parseInt`, an empty or missing piece as '0', `None` when either is NaN; `ClockPartsOfDigits` proves digit pieces read as their values |
| CalendarView.ShiftMinute | src/components/appointments/CalendarView.tsx:101-102 | the clock minute after moving on, wrapped into 0-1439 |
| CalendarView.AddMinutesToTime | src/components/appointments/CalendarView.tsx:98-104 | an unreadable time gives 'NaN:NaN'; any readable one gives two-digit hour 00-23, ':', two-digit minute 00-59 |
| CalendarView.ClockPartsOfDigits | src/components/appointments/CalendarView.tsx:100-101 | digits around a colon read as their values |
| CalendarView.FormatClockRoundTrip | src/components/appointments/CalendarView.tsx:103 | a printed clock time reads back as its hour and minute |
| CalendarView.AddMinutesValue | src/components/appointments/CalendarView.tsx:98-103 | the result reads back as (h * 60 + m + minutes) mod 1440 for the hour and minute read from the input |
| CalendarView.InvalidClockIsUnreadable | src/components/appointments/CalendarView.tsx:103 | 'NaN:NaN' itself reads as no time |
| CalendarView.ShiftTwice | src/components/appointments/CalendarView.tsx:101-102 | shifting a shifted clock time by b is shifting the original by a + b |
| CalendarView.AddMinutesCompose | src/components/appointments/CalendarView.tsx:98-104 | adding a then b minutes equals adding a + b, for every input text |
| CalendarView.StatusColor | src/components/appointments/CalendarView.tsx:107-118 | scheduled blue, completed green, cancelled red, anything else grey |
| CalendarView.EventOf | src/components/appointments/CalendarView.tsx:24-33 | same id, title `name - type`, start date+time, end date+moved time, equal colours from the status, classes incl. `status-<status>` |
| CalendarView.Events | src/components/appointments/CalendarView.tsx:24-33 | one event per appointment in order, each carrying its appointment, so the input is recoverable |
| CalendarView.EndKeepsStartDate | src/components/appointments/CalendarView.tsx:27-28 | start and end share the start's date even when the end wraps past midnight |
| DatePicker.Shift | src/components/common/DatePicker.tsx:54-60 | the decade step moves the start by delta and keeps the width |
| DatePicker.ShiftBackAndForth | src/components/common/DatePicker.tsx:54-60 | a step back and a step forward restore the window |
| DatePicker.Years | src/components/common/DatePicker.tsx:82-85 | start..end in order, increasing by one, length end - start + 1 (none if negative), exactly the years in range |
| DatePicker.Grid | src/components/common/DatePicker.tsx:172-175 | `firstDayOfMonth` blanks then day buttons 1..`daysInMonth` |
| DatePicker.MonthStepsMoveOneMonth | src/components/common/DatePicker.tsx:46-52 | outside years 0-99 prev/next move exactly one month, wrapping the year at January and December |
| DatePicker.PrevThenNext | src/components/common/DatePicker.tsx:46-52 | outside years 0-100 a step back then forward returns to the shown month |
| DatePicker.PrevThenNextFromYear100 | src/components/common/DatePicker.tsx:46-52 | from January of year 100 back then forward shows January 2000 |
| DatePicker.GridContinues | src/components/common/DatePicker.tsx:28-29 | the next month's blanks continue this month's grid, mod 7 |
| DatePicker.ChosenDate | src/components/common/DatePicker.tsx:67-69 | the emitted text is `yyyy-MM-dd` of the shown year and month and the day, reading back as that date |
| DatePicker.DatePickerState.constructor | src/components/common/DatePicker.tsx:23-26 | closed, month view, years 1900 to current year + 10, no date picked yet |
| DatePicker.DatePickerState.Open | src/components/common/DatePicker.tsx:97 | opens the popup, nothing else changes |
| DatePicker.DatePickerState.Close | src/components/common/DatePicker.tsx:106 | closes the popup, nothing else changes |
| DatePicker.DatePickerState.OpenYearPicker | src/components/common/DatePicker.tsx:152 | shows the year picker, nothing else changes |
| DatePicker.DatePickerState.PrevMonth | src/components/common/DatePicker.tsx:46-48 | the shown month becomes `new Date(year, month - 1)` |
| DatePicker.DatePickerState.NextMonth | src/components/common/DatePicker.tsx:50-52 | the shown month becomes `new Date(year, month + 1)` |
| DatePicker.DatePickerState.PrevDecade | src/components/common/DatePicker.tsx:54-56 | the year window moves back 10, nothing else changes |
| DatePicker.DatePickerState.NextDecade | src/components/common/DatePicker.tsx:58-60 | the year window moves forward 10, nothing else changes |
| DatePicker.DatePickerState.SelectYear | src/components/common/DatePicker.tsx:62-65 | keeps the month, shows the chosen year as `new Date` reads it, closes the year picker |
| DatePicker.DatePickerState.SelectDate | src/components/common/DatePicker.tsx:67-71 | appends the shown year and month with the chosen day (the date whose `yyyy-MM-dd` text, `ChosenDate`, goes to `onChange`) to the picked dates, keeps every picked date a real day of its month, and closes the popup |
| ClientForm.Required | src/schemas/clientForm.ts:48 | `min(1, message)` fails exactly on the empty string, with the schema's message |
| ClientForm.OneOf | src/schemas/clientForm.ts:52 | an enum fails exactly on a value outside its list |
| ClientForm.AtLeast | src/schemas/clientForm.ts:4 | `min(lo)` fails exactly below lo |
| ClientForm.AtMost | src/schemas/clientForm.ts:30 | `max(hi)` fails exactly above hi |
| ClientForm.OptionalBetween | src/schemas/clientForm.ts:80-91 | an absent optional number never fails; a present one fails exactly outside its bounds |
| ClientForm.MeasureIssues | src/schemas/clientForm.ts:3-16 | a measure fails exactly on a negative value or a unit outside its list, reported under its own path |
| ClientForm.OptionalMeasure | src/schemas/clientForm.ts:75-77 | an absent circumference or target weight never fails |
| ClientForm.Bounded | src/schemas/clientForm.ts:26-44 | hydration and sleep fail exactly outside [0, hi] or with more than one decimal place |
| ClientForm.RequiredNumber | src/schemas/clientForm.ts:70 | a required number fails exactly when missing or negative: missing with zod's own message, negative with the schema's |
| ClientForm.GeneralIssues | src/schemas/clientForm.ts:47-56 | no general issue exactly when the required strings are non-empty, the e-mail valid and the gender listed; an empty name is the first issue |
| ClientForm.HistoryIssues | src/schemas/clientForm.ts:58-70 | no history issue exactly when its required strings are non-empty, its enums listed and water intake present and non-negative; a missing water intake is its last issue |
| ClientForm.MetricsIssues | src/schemas/clientForm.ts:72-77 | no metrics issue exactly when height and weight are non-negative in listed units and each present circumference is too |
| ClientForm.LabIssues | src/schemas/clientForm.ts:79-83 | no lab issue exactly when each present cholesterol and triglyceride value is non-negative |
| ClientForm.CompositionIssues | src/schemas/clientForm.ts:85-91 | no composition issue exactly when each present value is non-negative, each percentage at most 100 and the BMI within 10-50 |
| ClientForm.GoalIssues | src/schemas/clientForm.ts:93-105 | no goal issue exactly when activity, occupation type, diet and goal are listed and a present target weight is valid |
| ClientForm.HabitIssues | src/schemas/clientForm.ts:108-110 | no habit issue exactly when both durations are in range with one decimal place |
| ClientForm.IssuesEmptyIffMeetsSchema | src/schemas/clientForm.ts:46-115 | the validator reports nothing exactly when the form meets every constraint of the schema |
| ClientForm.Issues | src/schemas/clientForm.ts:46-115 | `clientFormSchema.safeParse`: every group's issues in the schema's field order; `IssuesEmptyIffMeetsSchema` proves it empty exactly for forms meeting `MeetsSchema` |
| ClientForm.MeetsSchema | src/schemas/clientForm.ts:46-115 | every constraint of the schema as one statement, the independent partner of `Issues` |
| ClientForm.MissingWaterIntakeIsReported | src/schemas/clientForm.ts:70 | a form without `waterIntake` has an issue under `waterIntake` and never meets the schema |
| ClientForm.EmptyNameIsReported | src/schemas/clientForm.ts:48 | an empty name is reported under `name` with 'Name is required' |
| ClientForm.LowBmiIsReported | src/schemas/clientForm.ts:91 | a BMI below 10 is reported under `bmi` with 'BMI must be at least 10' |
| ClientForm.AbsentOptionalsNeverFail | src/schemas/clientForm.ts:67-111 | a valid form stays valid with every optional field removed; absent lab, composition and target-weight fields report nothing |
| IntakeWizard.InsertResolves | src/components/clients/AddClientModal.tsx:144-153 | after recording an error at p, a path resolves exactly when it did before or leads into p |
| IntakeWizard.Resolves | src/components/clients/AddClientModal.tsx:144-153 | the `in`-walk along a path: each step an object holding the key, the end not `undefined` |
| IntakeWizard.Insert | src/components/clients/AddClientModal.tsx:42 | records an error at a path, objects created along the way; `InsertResolves` proves exactly the paths into it are added |
| IntakeWizard.ErrorsOf | src/components/clients/AddClientModal.tsx:42 | the resolver's error tree for a list of issues; `ErrorsOfResolves` proves a path resolves exactly when an issue lies at or below it |
| IntakeWizard.ErrorsOfResolves | src/components/clients/AddClientModal.tsx:141-155 | in the tree built from the issues, a path resolves exactly when some issue lies at or below it |
| IntakeWizard.SectionFields | src/components/clients/AddClientModal.tsx:99-139 | a non-empty list of non-empty fields for steps 0-5, the metric fields for step 1, none for any other step |
| IntakeWizard.FieldHasError | src/components/clients/AddClientModal.tsx:144-153 | the walk along one dotted path answers exactly whether the path resolves |
| IntakeWizard.AnyFieldHasError | src/components/clients/AddClientModal.tsx:141-155 | `some` over the fields answers exactly whether one field's path resolves |
| IntakeWizard.HasSectionErrors | src/components/clients/AddClientModal.tsx:141-155 | the answer equals the statement that some field of the step has an error |
| IntakeWizard.ValidFormNeverBlocks | src/components/clients/AddClientModal.tsx:157-162 | a form meeting the schema never blocks Next at any step |
| IntakeWizard.EmptyNameBlocksFirstStep | src/components/clients/AddClientModal.tsx:157-162 | after validation, an empty name blocks Next on the first step |
| IntakeWizard.DefaultBmiBlocksSecondStep | src/components/clients/AddClientModal.tsx:57 | after validation, the default BMI 0 blocks Next on the second step |
| IntakeWizard.MissingWaterIntakeBlocksFirstStep | src/components/clients/AddClientModal.tsx:99-162 | once a form without `waterIntake` has been validated, Next is refused on the first step, whose fields include `waterIntake` |
| IntakeWizard.WholeMeasureIssuesDoNotBlock | src/components/clients/AddClientModal.tsx:126-154 | issues reported only at single keys other than `bmi`, as zod reports a measure replaced by a string, never block the second step, whose fields are `height.value`, `weight.value` and `bmi` |
| IntakeWizard.Wizard.constructor | src/components/clients/AddClientModal.tsx:22-33 | step 0 and panels 0-7 expanded, so `IsExpanded` holds for each of the eight panels |
| IntakeWizard.Wizard.IsExpanded | src/components/clients/AddClientModal.tsx:73-76 | a panel is expanded exactly when its key is present and true; an absent key reads as collapsed |
| IntakeWizard.Wizard.GoTo | src/components/clients/AddClientModal.tsx:78-84 | setting the step; when it changes, the panel keyed by the new step is forced expanded, others kept |
| IntakeWizard.Wizard.Next | src/components/clients/AddClientModal.tsx:157-162 | one step on (with the effect) exactly when the step has no errors, otherwise nothing changes |
| IntakeWizard.Wizard.Previous | src/components/clients/AddClientModal.tsx:164-167 | one step back without validating |
| IntakeWizard.Wizard.SectionClick | src/components/clients/AddClientModal.tsx:169-171 | jumps to any step without validating |
| IntakeWizard.Wizard.Toggle | src/components/clients/AddClientModal.tsx:65-71 | flips exactly the given panel and leaves every other entry and the step alone |
| IntakeWizard.Wizard.ShowPrevious | src/components/clients/AddClientModal.tsx:1371-1375 | Previous is shown after the first step |
| IntakeWizard.Wizard.ShowSubmit | src/components/clients/AddClientModal.tsx:1377-1385 | the submit button replaces Next on the last step |
| IntakeWizard.WalkToSubmit | src/components/clients/AddClientModal.tsx:1371-1385 | before the first submit the error tree is empty, so any form reaches the last step and its submit button with two presses of Next, Previous shown there |
| ClientsPage.FilterClients | src/pages/Clients.tsx:82-85 | the kept clients are a subsequence in order; each matches the lower-cased query in name or e-mail; each matching client is kept as often as it occurs and no other |
| ClientsPage.Matches | src/pages/Clients.tsx:82-85 | the lower-cased name or e-mail includes the lower-cased query; `FilterClients` keeps exactly the matching clients |
| ClientsPage.EmptyQueryKeepsAll | src/pages/Clients.tsx:82-85 | an empty query keeps every client in order |
| ClientsPage.QueryCaseIsIgnored | src/pages/Clients.tsx:82-85 | a query and its lower-cased form keep the same clients |
| ClientsPage.NameQueryKeepsClient | src/pages/Clients.tsx:82-85 | searching for a client's own name keeps that client |
| ClientsPage.FirstChars | src/pages/Clients.tsx:37 | at most one character per piece |
| ClientsPage.FirstCharsAppend | src/pages/Clients.tsx:37 | the first characters of two lists of pieces are those of each, concatenated |
| ClientsPage.Initials | src/pages/Clients.tsx:37 | the initials contain no space and are at most one per piece of the name |
| ClientsPage.InitialsOfJoin | src/pages/Clients.tsx:37 | the initials of `a + ' ' + b` are a's initials then b's; empty pieces from doubled spaces add nothing |
| ClientsPage.InitialsOfEmpty | src/pages/Clients.tsx:37 | an empty name has no initials, which is why doubled spaces add nothing to `InitialsOfJoin` |
| ClientsPage.InitialsOfWord | src/pages/Clients.tsx:37 | a single word gives its first letter |
| ClientsPage.ListView | src/pages/Clients.tsx:10-30 | the spinner exactly while loading whatever the list; 'No clients found' exactly for an empty list when loaded; otherwise one row per client with its initials |
| ClientsPage.Page.constructor | src/pages/Clients.tsx:62-64 | loading, no clients, empty query |
| ClientsPage.Page.LoadClients | src/pages/Clients.tsx:67-76 | loading ends on success and failure; the list is replaced only on success |
| ClientsPage.Page.SetQuery | src/pages/Clients.tsx:111 | typing changes only the query |
| ClientsPage.Page.Shown | src/pages/Clients.tsx:126 | what the page shows: `ListView` of the filtered clients and the loading flag; `FailedFirstLoad` proves a failed first load shows the empty message |
| ClientsPage.FailedFirstLoad | src/pages/Clients.tsx:67-76 | a failed first load shows 'No clients found', not a spinner for ever |
| ErrorBoundary.AlertMessage | src/components/common/ErrorBoundary.tsx:59 | the error's message, or 'An unexpected error occurred' when missing or empty; never empty |
| ErrorBoundary.HasFallback | src/components/common/ErrorBoundary.tsx:47 | the `fallback` prop is used only when given and not empty, as the falsy test in `render` reads it |
| ErrorBoundary.Boundary.constructor | src/components/common/ErrorBoundary.tsx:19-21 | no error, nothing held, nothing reported |
| ErrorBoundary.Boundary.Catch | src/components/common/ErrorBoundary.tsx:23-31 | sets the error state with the error and its info, and reports to `onError` exactly once when given |
| ErrorBoundary.Boundary.Reset | src/components/common/ErrorBoundary.tsx:40-42 | clears the error flag, the error and the info together |
| ErrorBoundary.Boundary.DidUpdate | src/components/common/ErrorBoundary.tsx:33-38 | resets exactly when `resetKeys` is given and is not the previous array by reference; otherwise nothing changes |
| ErrorBoundary.Boundary.Render | src/components/common/ErrorBoundary.tsx:44-87 | children exactly without an error; with one the fallback if truthy, else the alert with its message and, in development only, the stack |
| ErrorBoundary.CatchThenNewKeys | src/components/common/ErrorBoundary.test.tsx:170-187 | after a catch the alert shows until new `resetKeys` arrive, then the children show; `onError` was called once |

## Left out

- I/O and the environment are parameters or not modelled:
  - the network and the simulated 500 ms delay;
  - `setTimeout` sleeps, which become delay values;
  - `localStorage` and `location.href`, which become the `Session` fields;
  - the logger;
  - `import.meta.env` flags, which become boolean parameters;
  - the clock, which gives each timestamp (one parameter per reading) and the current year and shown month for the date picker.
- `clientsService`, the `createAsyncThunk` wrappers and the axios instance with its logging interceptors. Only reducer transitions on payloads and the error policy are modelled.
- All JSX, CSS classes, icons and the FullCalendar configuration. Only the choice of what is shown is modelled (`ListView`, `Render`, `Grid`, the wizard footer).
- `onSubmit` of the add-client dialog, which calls `clientsService.create`, and its `isSubmitting` flag.
- `refreshToken` succeeding: it always throws in the source. The re-authenticated retry after a successful refresh is not reachable and is not modelled.
- Time zones and daylight saving in `Date`, and the finite range of `Date`. Dates are proleptic Gregorian triples, and `addMinutesToTime` is arithmetic on minutes of a 1440-minute day.
- `CalendarView.AddMinutesToTime`: durations are integers. A fractional or NaN duration is not modelled.
- `DatePicker.DatePickerState.SelectDate`: the model records the picked date, not the text passed to `onChange`. That text is `ChosenDate` of the recorded date, whose contract gives its format and the date it reads back as.
- `Dates.EraYear`: date-fns `yyyy` behaviour for years before 1 (era years), and for five-digit years, is taken from the library's documented token meaning. Its code is not part of this model.
- `ClientForm.Checks`: zod's e-mail pattern and the one-decimal refinement `Number(val.toFixed(1)) === val` depend on library and floating-point behaviour. They are parameters of the validator.
- `ClientForm.Issues`: apart from `waterIntake`, fields hold values of their declared types. Several inputs of the dialog break this, and the model does not report the issues zod gives for them:
  - A number input registered without `valueAsNumber` hands zod a string once the user edits it. `z.number()` then reports an invalid-type issue under that field, so an edited number field always fails. The model's numeric fields are numbers.
  - A text input the user never touched holds `undefined`, not "". zod reports it under the same path, but with its own message, and the model gives it the schema's message.
  - The measures `height`, `weight`, the three circumferences and `targetWeight` (src/components/clients/AddClientModal.tsx:897-960, 1321) go through `MeasurementInput`. It registers the measure's own path on a number input (src/components/common/MeasurementInput.tsx:64-69), so an edit replaces the `{value, unit}` object with a string. zod's object schema (src/schemas/clientForm.ts:3-16) then reports an invalid-type issue at `["height"]`, not under `["height", "value"]`.
  - The unit select registers `` `${name}Unit` `` (src/components/common/MeasurementInput.tsx:72-75), a key the schema strips, so the chosen unit never reaches validation. The model's measures carry their unit.
  - An issue at a measure as a whole does not block the second step. The walk of `"height.value"` stops at the field error, which has no `value` member (`IntakeWizard.WholeMeasureIssuesDoNotBlock`).
  - `exerciseRoutine` is registered on a `<select>` of strings (src/components/clients/AddClientModal.tsx:715-724), while the schema expects an object or `undefined` (src/schemas/clientForm.ts:18-24). The model takes it as absent or an object.
  - `healthConcerns` is registered on a `<textarea>` (src/components/clients/AddClientModal.tsx:1346-1352), while the schema expects an array of strings. The model takes it as absent or a list.
- zod's default messages are `None` in an issue. The refinement is assumed to run even after a failed `min` or `max`, because zod's checks are not fatal.
- The add-client dialog never supplies `waterIntake`:
  - no input registers it, and `defaultValues` (src/components/clients/AddClientModal.tsx:43-58) leave it out;
  - the "Daily Water Intake" input registers `hydration.dailyWaterIntake`.
- As a result, every validation of the dialog's form fails (`ClientForm.MissingWaterIntakeIsReported`), and `onSubmit` can never run.
  - After a validation, Next is refused on the first step (`IntakeWizard.MissingWaterIntakeBlocksFirstStep`).
  - Before any validation, react-hook-form's `errors` is empty and no step is refused (`IntakeWizard.WalkToSubmit`).
  - `IntakeWizard.ValidFormNeverBlocks` describes a schema-valid form, which this dialog cannot produce.
- The dialog's Add Client button is in the footer, outside the `<form>` element that spans lines 217-1362, and has no `form` attribute. Under HTML's form-owner rules, clicking it submits nothing. The model does not include the page markup, so it does not capture this.
- `IntakeWizard.ErrorsOf`: react-hook-form's resolver is library code. Its error tree is modelled as objects created along each issue's path. A field error's own `message`, `type` and `ref` members are not modelled.
- `IntakeWizard.Wizard`: `currentSection` and the panel keys are decimal strings in the source, always produced by `toString()` of an integer. They are the integers here.
- `Text.ToLower`: `toLowerCase` is modelled on the ASCII letters only. Unicode case mapping is not modelled.
- `Records.Value`: numbers are reals; JavaScript's floating-point arithmetic and `NaN` are not modelled.
- `ClientsPage.Client`: only the id, name and e-mail the page reads are kept. The other fields of a client are not modelled.
- The seed data in `src/mocks/clients.ts` is not part of this model; the table starts from any given records.
- `MockApi.ClientTable.Get`: `get('/clients')` returns the live `mockClients` array itself, so a caller that mutates the result mutates the table. The model returns the list as a value and does not capture that aliasing.
- `ErrorBoundary.Boundary.Render`: a React node is represented by its text, with the empty text as the falsy node. `globalThis.location.reload()` is not modelled.

=== FILE: array_input.dfy ===
/** The tag-list editor (src/components/common/ArrayInput.tsx): a text box
    and an Add button that append the trimmed text to a list of distinct
    entries, at most `maxItems` of them, a remove button per entry, and Enter
    in the text box acting as Add. Every change of the list is pushed to the
    surrounding form with `setValue`. */
module ArrayInput {
  import opened Wrappers
  import opened Text
  import Sequences

  /** `!maxItems`: no maximum given, or a maximum of 0. */
  predicate NoLimit(maxItems: Option<int>) {
    maxItems.None? || maxItems.value == 0
  }

  /** The handler's guard: `newItem.trim() && (!maxItems || items.length < maxItems)`. */
  predicate AddAllowed(items: seq<string>, newItem: string, maxItems: Option<int>) {
    Trim(newItem) != [] && (NoLimit(maxItems) || |items| < maxItems.value)
  }

  /** The Add button's `disabled`:
      `!newItem.trim() || (maxItems !== undefined && items.length >= maxItems)`. */
  predicate AddDisabled(items: seq<string>, newItem: string, maxItems: Option<int>) {
    Trim(newItem) == [] || (maxItems.Some? && |items| >= maxItems.value)
  }

  /** The button is disabled exactly when the handler would refuse, except for
      a maximum of 0, which the handler reads as "no limit" and the button as
      "full". */
  lemma ButtonMatchesGuard(items: seq<string>, newItem: string, maxItems: Option<int>)
    ensures maxItems != Some(0) ==> (AddDisabled(items, newItem, maxItems) <==> !AddAllowed(items, newItem, maxItems))
    ensures maxItems == Some(0) && Trim(newItem) != [] ==>
      AddDisabled(items, newItem, maxItems) && AddAllowed(items, newItem, maxItems)
  {
  }

  /** The entries the editor keeps: non-empty, already trimmed, pairwise distinct. */
  predicate WellFormed(items: seq<string>) {
    (forall i :: 0 <= i < |items| ==> items[i] != [] && IsTrimmed(items[i]))
    && (forall i, j :: 0 <= i < j < |items| ==> items[i] != items[j])
  }

  datatype AddResult = Rejected | Appended(items: seq<string>)

  /** `handleAddItem` on the list: the trimmed text is appended when the guard
      allows it and it is not already listed; otherwise nothing happens. */
  function TryAdd(items: seq<string>, newItem: string, maxItems: Option<int>): (r: AddResult)
    ensures r.Appended? <==> AddAllowed(items, newItem, maxItems) && Trim(newItem) !in items
    ensures r.Appended? ==> r.items == items + [Trim(newItem)]
    ensures r.Appended? && WellFormed(items) ==> WellFormed(r.items)
    ensures r.Appended? && maxItems.Some? && maxItems.value > 0 ==> |r.items| <= maxItems.value
  {
    var t := Trim(newItem);
    if AddAllowed(items, newItem, maxItems) && t !in items then
      TrimIdempotent(newItem);
      TrimmedIsFixpointConverse(t);
      AppendKeepsWellFormed(items, t);
      Appended(items + [t])
    else Rejected
  }

  lemma AppendKeepsWellFormed(items: seq<string>, t: string)
    requires t != [] && IsTrimmed(t) && t !in items
    ensures WellFormed(items) ==> WellFormed(items + [t])
  {
    var u := items + [t];
    assert forall i :: 0 <= i < |items| ==> u[i] == items[i];
  }

  /** A string equal to its own trim is trimmed. */
  lemma TrimmedIsFixpointConverse(s: string)
    requires Trim(s) == s
    ensures IsTrimmed(s)
  {
  }

  /** Adding text that is already listed once trimmed changes nothing. */
  lemma AddDuplicateIsRejected(items: seq<string>, newItem: string, maxItems: Option<int>)
    requires Trim(newItem) in items
    ensures TryAdd(items, newItem, maxItems) == Rejected
  {
  }

  /** `items.filter((_, i) => i !== index)`: drops exactly position `index`,
      keeping the order; an index outside the list drops nothing. */
  function WithoutIndex(items: seq<string>, index: int): (r: seq<string>)
    ensures 0 <= index < |items| ==> |r| == |items| - 1
    ensures 0 <= index < |items| ==> forall j :: 0 <= j < index ==> r[j] == items[j]
    ensures 0 <= index < |items| ==> forall j :: index <= j < |r| ==> r[j] == items[j + 1]
    ensures !(0 <= index < |items|) ==> r == items
  {
    if 0 <= index < |items| then Sequences.RemoveAt(items, index) else items
  }

  /** Removing an entry keeps the list well formed. */
  lemma RemovePreservesWellFormed(items: seq<string>, index: int)
    requires WellFormed(items)
    ensures WellFormed(WithoutIndex(items, index))
  {
    var r := WithoutIndex(items, index);
    if 0 <= index < |items| {
      forall i, j | 0 <= i < j < |r|
        ensures r[i] != r[j]
      {
        var i' := if i < index then i else i + 1;
        var j' := if j < index then j else j + 1;
        assert r[i] == items[i'] && r[j] == items[j'];
      }
    }
  }

  class TagListInput {
    var items: seq<string>
    var newItem: string
    /** The last list pushed to the form with `setValue`, if any. */
    var formValue: Option<seq<string>>
    const maxItems: Option<int>

    /** Entries are well formed, within a positive maximum, and the form holds
        the current list once anything has been pushed. */
    ghost predicate Valid()
      reads this
    {
      WellFormed(items)
      && (maxItems.Some? && maxItems.value > 0 ==> |items| <= maxItems.value)
      && (formValue.Some? ==> formValue.value == items)
    }

    constructor (maxItems: Option<int>)
      ensures Valid() && this.maxItems == maxItems
      ensures items == [] && newItem == "" && formValue == None
    {
      this.maxItems := maxItems;
      items := [];
      newItem := "";
      formValue := None;
    }

    /** Typing in the text box (`onChange`). */
    method Type(text: string)
      requires Valid()
      modifies this
      ensures Valid() && newItem == text
      ensures items == old(items) && formValue == old(formValue)
    {
      newItem := text;
    }

    /** `handleAddItem`: on success the list grows by the trimmed text, the text
        box is cleared and the new list is pushed to the form. */
    method AddItem()
      requires Valid()
      modifies this
      ensures Valid()
      ensures match TryAdd(old(items), old(newItem), maxItems)
        case Appended(l) => items == l && newItem == "" && formValue == Some(l)
        case Rejected => items == old(items) && newItem == old(newItem) && formValue == old(formValue)
    {
      var r := TryAdd(items, newItem, maxItems);
      if r.Appended? {
        items := r.items;
        formValue := Some(r.items);
        newItem := "";
      }
    }

    /** `handleRemoveItem`: the list without position `index`, pushed to the
        form even when `index` is out of range. */
    method RemoveItem(index: int)
      requires Valid()
      modifies this
      ensures Valid()
      ensures items == WithoutIndex(old(items), index) && formValue == Some(items)
      ensures newItem == old(newItem)
    {
      RemovePreservesWellFormed(items, index);
      items := WithoutIndex(items, index);
      formValue := Some(items);
    }

    /** `handleKeyDown`: Enter is swallowed and does what Add does; any other
        key changes nothing. Returns whether the default action was prevented. */
    method KeyDown(key: string) returns (prevented: bool)
      requires Valid()
      modifies this
      ensures Valid()
      ensures prevented == (key == "Enter")
      ensures key == "Enter" ==> match TryAdd(old(items), old(newItem), maxItems)
        case Appended(l) => items == l && newItem == "" && formValue == Some(l)
        case Rejected => items == old(items) && newItem == old(newItem) && formValue == old(formValue)
      ensures key != "Enter" ==> items == old(items) && newItem == old(newItem) && formValue == old(formValue)
    {
      prevented := key == "Enter";
      if prevented {
        AddItem();
      }
    }

    /** The Add button's `disabled` attribute for the current state. */
    function ButtonDisabled(): bool
      reads this
    {
      AddDisabled(items, newItem, maxItems)
    }
  }
}

=== FILE: calendar_view.dfy ===
/** The appointment calendar's event list (src/components/appointments/CalendarView.tsx):
    each appointment becomes one calendar event whose start is its date and
    time, whose end is the time moved on by the duration on a 24-hour clock,
    and whose colours come from its status. */
module CalendarView {
  import opened Wrappers
  import opened Text
  import opened Dates

  const MinutesPerDay: int := 1440

  /** The hour and minute `addMinutesToTime` reads from `HH:MM`: the pieces
      before and after the first ':' (an empty or missing piece reads as "0"),
      each through `parseInt`; `None` when either is NaN. */
  function ClockParts(time: string): (r: Option<(int, int)>) {
    var parts := Split(time, ':');
    var hours := if parts[0] == "" then "0" else parts[0];
    var mins := if |parts| < 2 || parts[1] == "" then "0" else parts[1];
    var h := ParseInt(hours);
    var m := ParseInt(mins);
    if h.Some? && m.Some? then Some((h.value, m.value)) else None
  }

  /** A minute of the day as `HH:MM`. */
  function FormatClock(total: int): (r: string)
    requires 0 <= total < MinutesPerDay
    ensures |r| == 5 && r[2] == ':'
    ensures AllDigits(r[..2]) && AllDigits(r[3..])
    ensures DigitsValue(r[..2]) == total / 60 < 24 && DigitsValue(r[3..]) == total % 60 < 60
  {
    var r := TwoDigits(total / 60) + ":" + TwoDigits(total % 60);
    assert r[..2] == TwoDigits(total / 60) && r[3..] == TwoDigits(total % 60);
    r
  }

  /** What `String(NaN).padStart(2, '0')` gives for both fields of an invalid date. */
  const InvalidClock: string := "NaN:NaN"

  /** The minute of the day `minutes` after h:m, wrapping around midnight in
      either direction. */
  function ShiftMinute(h: int, m: int, minutes: int): (t: int)
    ensures 0 <= t < MinutesPerDay
  {
    (h * 60 + m + minutes) % MinutesPerDay
  }

  /** `addMinutesToTime`: the clock time `minutes` after `time`; an
      unreadable time gives the text of an invalid date. */
  function AddMinutesToTime(time: string, minutes: int): (r: string)
    ensures ClockParts(time).None? ==> r == InvalidClock
    ensures ClockParts(time).Some? ==> |r| == 5 && r[2] == ':' && AllDigits(r[..2]) && AllDigits(r[3..])
    ensures ClockParts(time).Some? ==> DigitsValue(r[..2]) < 24 && DigitsValue(r[3..]) < 60
  {
    match ClockParts(time)
    case None => InvalidClock
    case Some((h, m)) => FormatClock(ShiftMinute(h, m, minutes))
  }

  /** `HH:MM` splits at its colon into its two halves. */
  lemma SplitClock(a: string, b: string)
    requires ':' !in a && ':' !in b
    ensures Split(a + ":" + b, ':') == [a, b]
  {
    assert a + ":" + b == a + [':'] + b;
    SplitAppend(a, b, ':');
    SplitNoSeparator(a, ':');
    SplitNoSeparator(b, ':');
  }

  /** Two digit strings around a colon read as their values. */
  lemma ClockPartsOfDigits(a: string, b: string)
    requires a != [] && b != [] && AllDigits(a) && AllDigits(b)
    ensures ClockParts(a + ":" + b) == Some((DigitsValue(a) as int, DigitsValue(b) as int))
  {
    assert ':' !in a && ':' !in b by {
      assert !IsDigit(':');
    }
    SplitClock(a, b);
    ParseIntOfDigits(a);
    ParseIntOfDigits(b);
  }

  /** A formatted clock reads back as its hour and minute. */
  lemma FormatClockRoundTrip(total: int)
    requires 0 <= total < MinutesPerDay
    ensures ClockParts(FormatClock(total)) == Some((total / 60, total % 60))
  {
    var a := TwoDigits(total / 60);
    var b := TwoDigits(total % 60);
    assert FormatClock(total) == a + ":" + b;
    ClockPartsOfDigits(a, b);
  }

  /** The result of `addMinutesToTime` reads back as the clock time
      (h * 60 + m + minutes) mod 1440 of the time read from the input. */
  lemma AddMinutesValue(time: string, minutes: int, h: int, m: int)
    requires ClockParts(time) == Some((h, m))
    ensures var t := ShiftMinute(h, m, minutes);
            ClockParts(AddMinutesToTime(time, minutes)) == Some((t / 60, t % 60))
  {
    FormatClockRoundTrip(ShiftMinute(h, m, minutes));
  }

  /** The invalid text stays invalid. */
  lemma InvalidClockIsUnreadable()
    ensures ClockParts(InvalidClock) == None
  {
    SplitClock("NaN", "NaN");
    assert InvalidClock == "NaN" + ":" + "NaN";
    NaNIsNotANumber();
  }

  lemma NaNIsNotANumber()
    ensures ParseInt("NaN") == None
  {
    var nan := "NaN";
    assert nan[0] == 'N' && !IsWhitespace('N') && !IsDigit('N');
    assert TrimStart(nan) == nan;
    assert DigitPrefix(nan) == [];
  }

  /** Shifting the clock time of a shift is one shift by the sum. */
  lemma ShiftTwice(h: int, m: int, a: int, b: int)
    ensures var t := ShiftMinute(h, m, a);
            ShiftMinute(t / 60, t % 60, b) == ShiftMinute(h, m, a + b)
  {
    var x := h * 60 + m + a;
    var t := x % MinutesPerDay;
    assert (t / 60) * 60 + t % 60 == t;
    assert (t + b) % MinutesPerDay == (x + b) % MinutesPerDay;
  }

  /** Moving a time on by `a` and then by `b` minutes is moving it on by
      `a + b`, for every input, readable or not. */
  lemma AddMinutesCompose(time: string, a: int, b: int)
    ensures AddMinutesToTime(AddMinutesToTime(time, a), b) == AddMinutesToTime(time, a + b)
  {
    match ClockParts(time)
    case Some((h, m)) =>
      var t := ShiftMinute(h, m, a);
      AddMinutesValue(time, a, h, m);
      ShiftTwice(h, m, a, b);
      assert AddMinutesToTime(time, a) == FormatClock(t);
    case None =>
      InvalidClockIsUnreadable();
  }

  /** `getStatusColor`. */
  function StatusColor(status: string): (c: string)
    ensures status == "scheduled" ==> c == "#3B82F6"
    ensures status == "completed" ==> c == "#10B981"
    ensures status == "cancelled" ==> c == "#EF4444"
    ensures status !in {"scheduled", "completed", "cancelled"} ==> c == "#6B7280"
  {
    match status
    case "scheduled" => "#3B82F6"
    case "completed" => "#10B981"
    case "cancelled" => "#EF4444"
    case _ => "#6B7280"
  }

  /** A calendar day as a `Date` holds it: month 0-11. */
  datatype Day = Day(year: int, month: int, day: int) {
    predicate Valid() {
      0 <= month < 12 && 1 <= day <= DaysInMonth(year, month)
    }
  }

  datatype Appointment = Appointment(
    id: string,
    patientName: string,
    date: Day,
    time: string,
    duration: int,
    kind: string,
    notes: Option<string>,
    status: string)

  datatype Event = Event(
    id: string,
    title: string,
    start: string,
    end: string,
    backgroundColor: string,
    borderColor: string,
    extendedProps: Appointment,
    classNames: seq<string>)

  /** The `yyyy-MM-dd` of the appointment's day followed by 'T'. */
  function DatePrefix(a: Appointment): string
    requires a.date.Valid()
  {
    FormatIsoDate(a.date.year, a.date.month, a.date.day) + "T"
  }

  /** The event one appointment becomes. */
  function EventOf(a: Appointment): (e: Event)
    requires a.date.Valid()
    ensures e.id == a.id && e.extendedProps == a
    ensures e.title == a.patientName + " - " + a.kind
    ensures e.start == DatePrefix(a) + a.time
    ensures e.end == DatePrefix(a) + AddMinutesToTime(a.time, a.duration)
    ensures e.backgroundColor == e.borderColor == StatusColor(a.status)
    ensures e.classNames == ["appointment-event", "status-" + a.status]
  {
    var day := DatePrefix(a);
    Event(a.id, a.patientName + " - " + a.kind, day + a.time,
          day + AddMinutesToTime(a.time, a.duration),
          StatusColor(a.status), StatusColor(a.status), a,
          ["appointment-event", "status-" + a.status])
  }

  /** `appointments.map(...)`: one event per appointment, in order; each
      event carries its appointment, so the list can be read back from the
      events. */
  function Events(appointments: seq<Appointment>): (r: seq<Event>)
    requires forall i :: 0 <= i < |appointments| ==> appointments[i].date.Valid()
    ensures |r| == |appointments|
    ensures forall i :: 0 <= i < |r| ==> r[i] == EventOf(appointments[i])
    ensures seq(|r|, i requires 0 <= i < |r| => r[i].extendedProps) == appointments
  {
    seq(|appointments|, i requires 0 <= i < |appointments| => EventOf(appointments[i]))
  }

  /** The start and end of an event share the start's date, even when the
      end time has wrapped past midnight to an earlier clock time: 23:30 plus
      an hour ends at 00:30 of the start's day. */
  lemma EndKeepsStartDate(a: Appointment, h: int, m: int)
    requires a.date.Valid() && ClockParts(a.time) == Some((h, m))
    ensures EventOf(a).end == DatePrefix(a) + FormatClock(ShiftMinute(h, m, a.duration))
    ensures StartsWith(EventOf(a).start, DatePrefix(a)) && StartsWith(EventOf(a).end, DatePrefix(a))
  {
    PrefixOfAppend(DatePrefix(a), a.time);
    PrefixOfAppend(DatePrefix(a), AddMinutesToTime(a.time, a.duration));
  }

  lemma PrefixOfAppend(p: string, s: string)
    ensures StartsWith(p + s, p)
  {
    assert (p + s)[..|p|] == p;
  }
}

=== FILE: client_form.dfy ===
/** The client intake schema (src/schemas/clientForm.ts) read as a validator:
    the list of issues it reports for a filled-in intake form, each with the
    path of the field and the message the schema gives (or `None` where the
    schema leaves the message to the validation library). A field the form
    never set is `None` where the schema lets it be left out, and for the
    required number `waterIntake`, which zod then reports as missing; every
    other field holds a value of its declared type. The two checks that depend
    on library or floating-point behaviour, the e-mail pattern and the "at
    most one decimal place" refinement, are parameters. */
module ClientForm {
  import opened Wrappers

  // The schema's messages.
  const NameRequired: string := "Name is required"
  const InvalidEmail: string := "Invalid email address"
  const DateOfBirthRequired: string := "Date of birth is required"
  const OccupationRequired: string := "Occupation is required"
  const AppointmentReasonRequired: string := "Appointment reason is required"
  const ExpectationsRequired: string := "Expectations are required"
  const ClinicalObjectiveRequired: string := "Clinical objective is required"
  const IntestinalFunctionRequired: string := "Intestinal function information is required"
  const PhysicalActivityRequired: string := "Physical activity information is required"
  const WakeUpTimeRequired: string := "Wake up time is required"
  const BedTimeRequired: string := "Bed time is required"
  const WaterIntakeNegative: string := "Water intake must be positive"
  const ValueNegative: string := "Value must be positive"
  const HdlNegative: string := "HDL cholesterol must be positive"
  const LdlNegative: string := "LDL cholesterol must be positive"
  const TotalCholesterolNegative: string := "Total cholesterol must be positive"
  const TriglyceridesNegative: string := "Triglycerides must be positive"
  const VisceralFatNegative: string := "Visceral fat must be positive"
  const MuscleMassNegative: string := "Muscle mass must be positive"
  const BmiTooLow: string := "BMI must be at least 10"
  const BmiTooHigh: string := "BMI cannot exceed 50"
  const DailyWaterNegative: string := "Daily water intake must be positive"
  const DailyWaterTooHigh: string := "Daily water intake is too high"
  const DailyWaterDecimals: string := "Daily water intake must have at most one decimal place"
  const SleepNegative: string := "Average sleep duration must be positive"
  const SleepTooHigh: string := "Average sleep duration cannot exceed 24 hours"
  const SleepDecimals: string := "Average sleep duration must have at most one decimal place"

  datatype Measure = Measure(value: real, unit: string)

  datatype ExerciseRoutine = ExerciseRoutine(kind: string, frequency: string, duration: string)

  datatype IntakeForm = IntakeForm(
    // General information
    name: string,
    email: string,
    phone: Option<string>,
    dateOfBirth: string,
    gender: string,
    occupation: string,
    appointmentReason: string,
    expectations: string,
    clinicalObjective: string,
    // Personal and social history
    intestinalFunction: string,
    sleepQuality: string,
    smokingStatus: string,
    alcoholConsumption: string,
    maritalStatus: string,
    physicalActivity: string,
    wakeUpTime: string,
    bedTime: string,
    foodPreferences: Option<seq<string>>,
    foodAllergies: Option<seq<string>>,
    foodIntolerances: Option<seq<string>>,
    /** `None` when the form never set it. */
    waterIntake: Option<real>,
    // Health and body metrics
    height: Measure,
    weight: Measure,
    abdominalCircumference: Option<Measure>,
    waistCircumference: Option<Measure>,
    chestCircumference: Option<Measure>,
    // Analytical data
    hdlCholesterol: Option<real>,
    ldlCholesterol: Option<real>,
    totalCholesterol: Option<real>,
    triglycerides: Option<real>,
    // Body composition
    visceralFat: Option<real>,
    muscleMass: Option<real>,
    bodyFatPercentage: Option<real>,
    muscleMassPercentage: Option<real>,
    bodyWaterPercentage: Option<real>,
    bmi: Option<real>,
    // Lifestyle and activity
    activityLevel: string,
    exerciseRoutine: Option<ExerciseRoutine>,
    occupationType: string,
    // Dietary preferences
    dietType: string,
    favoriteFoods: Option<seq<string>>,
    foodsToAvoid: Option<seq<string>>,
    // Health goals
    primaryGoal: string,
    targetWeight: Option<Measure>,
    healthConcerns: Option<seq<string>>,
    // Lifestyle habits
    dailyWaterIntake: real,
    averageSleepDuration: real,
    supplements: Option<seq<string>>,
    // System fields
    nutritionistId: string)

  /** One validation failure: where, and the schema's own message if it has one. */
  datatype Issue = Issue(path: seq<string>, message: Option<string>)

  /** The checks the schema delegates: zod's e-mail pattern and
      `Number(val.toFixed(1)) === val`. */
  datatype Checks = Checks(isEmail: string -> bool, oneDecimal: real -> bool)

  const Genders: set<string> := {"male", "female"}
  const SleepQualities: set<string> := {"poor", "fair", "good", "excellent"}
  const SmokingStatuses: set<string> := {"never", "former", "current"}
  const AlcoholLevels: set<string> := {"none", "occasional", "regular"}
  const MaritalStatuses: set<string> := {"single", "married", "divorced", "widowed"}
  const ActivityLevels: set<string> := {"sedentary", "lightly_active", "moderately_active", "very_active"}
  const OccupationTypes: set<string> := {"sedentary", "standing", "physical_labor"}
  const DietTypes: set<string> := {"standard", "vegetarian", "vegan", "keto", "paleo", "other"}
  const PrimaryGoals: set<string> := {"weight_loss", "muscle_gain", "maintenance", "improve_energy", "other"}
  const LengthUnits: set<string> := {"cm", "in"}
  const WeightUnits: set<string> := {"kg", "lbs"}

  /** `z.string().min(1, message)`. */
  function Required(key: string, v: string, message: string): (r: seq<Issue>)
    ensures r == [] <==> v != ""
    ensures r != [] ==> r == [Issue([key], Some(message))]
  {
    if v == "" then [Issue([key], Some(message))] else []
  }

  /** `z.enum(allowed)`. */
  function OneOf(key: string, v: string, allowed: set<string>): (r: seq<Issue>)
    ensures r == [] <==> v in allowed
    ensures r != [] ==> r == [Issue([key], None)]
  {
    if v in allowed then [] else [Issue([key], None)]
  }

  /** `.min(lo, message)` on a number. */
  function AtLeast(path: seq<string>, v: real, lo: real, message: Option<string>): (r: seq<Issue>)
    ensures r == [] <==> lo <= v
    ensures r != [] ==> r == [Issue(path, message)]
  {
    if lo <= v then [] else [Issue(path, message)]
  }

  /** `.max(hi, message)` on a number. */
  function AtMost(path: seq<string>, v: real, hi: real, message: Option<string>): (r: seq<Issue>)
    ensures r == [] <==> v <= hi
    ensures r != [] ==> r == [Issue(path, message)]
  {
    if v <= hi then [] else [Issue(path, message)]
  }

  /** An optional number: no issue when absent. */
  function OptionalBetween(key: string, v: Option<real>, lo: real, loMessage: Option<string>,
                           hi: Option<real>, hiMessage: Option<string>): (r: seq<Issue>)
    ensures v.None? ==> r == []
    ensures r == [] <==> v.None? || (lo <= v.value && (hi.Some? ==> v.value <= hi.value))
    ensures forall i :: 0 <= i < |r| ==> r[i].path == [key]
  {
    if v.None? then []
    else AtLeast([key], v.value, lo, loMessage)
         + (if hi.Some? then AtMost([key], v.value, hi.value, hiMessage) else [])
  }

  /** `heightSchema`, `weightSchema`, `measurementSchema`: a non-negative
      value and a unit from the list. */
  function MeasureIssues(key: string, m: Measure, units: set<string>): (r: seq<Issue>)
    ensures r == [] <==> 0.0 <= m.value && m.unit in units
    ensures forall i :: 0 <= i < |r| ==> |r[i].path| == 2 && r[i].path[0] == key
  {
    AtLeast([key, "value"], m.value, 0.0, Some(ValueNegative))
      + (if m.unit in units then [] else [Issue([key, "unit"], None)])
  }

  function OptionalMeasure(key: string, m: Option<Measure>, units: set<string>): (r: seq<Issue>)
    ensures m.None? ==> r == []
    ensures r == [] <==> m.None? || (0.0 <= m.value.value && m.value.unit in units)
    ensures forall i :: 0 <= i < |r| ==> |r[i].path| == 2 && r[i].path[0] == key
  {
    if m.None? then [] else MeasureIssues(key, m.value, units)
  }

  /** A number in [lo, hi] with at most one decimal place, under `key.field`. */
  function Bounded(key: string, field: string, v: real, hi: real, c: Checks,
                   loMessage: string, hiMessage: string, decimalMessage: string): (r: seq<Issue>)
    ensures r == [] <==> 0.0 <= v <= hi && c.oneDecimal(v)
    ensures forall i :: 0 <= i < |r| ==> r[i].path == [key, field]
  {
    AtLeast([key, field], v, 0.0, Some(loMessage))
      + AtMost([key, field], v, hi, Some(hiMessage))
      + (if c.oneDecimal(v) then [] else [Issue([key, field], Some(decimalMessage))])
  }

  function GeneralIssues(f: IntakeForm, c: Checks): (r: seq<Issue>)
    ensures r == [] <==>
      f.name != "" && c.isEmail(f.email) && f.dateOfBirth != "" && f.gender in Genders
      && f.occupation != "" && f.appointmentReason != "" && f.expectations != "" && f.clinicalObjective != ""
    ensures f.name == "" ==> r[0] == Issue(["name"], Some(NameRequired))
  {
    Required("name", f.name, NameRequired)
    + (if c.isEmail(f.email) then [] else [Issue(["email"], Some(InvalidEmail))])
    + Required("dateOfBirth", f.dateOfBirth, DateOfBirthRequired)
    + OneOf("gender", f.gender, Genders)
    + Required("occupation", f.occupation, OccupationRequired)
    + Required("appointmentReason", f.appointmentReason, AppointmentReasonRequired)
    + Required("expectations", f.expectations, ExpectationsRequired)
    + Required("clinicalObjective", f.clinicalObjective, ClinicalObjectiveRequired)
  }

  /** `z.number().min(0, message)` on a field that may be missing: a missing
      number is zod's "Required" issue, with the library's message. */
  function RequiredNumber(key: string, v: Option<real>, message: string): (r: seq<Issue>)
    ensures r == [] <==> v.Some? && v.value >= 0.0
    ensures v.None? ==> r == [Issue([key], None)]
    ensures v.Some? && r != [] ==> r == [Issue([key], Some(message))]
  {
    if v.None? then [Issue([key], None)] else AtLeast([key], v.value, 0.0, Some(message))
  }

  function HistoryIssues(f: IntakeForm): (r: seq<Issue>)
    ensures r == [] <==>
      f.intestinalFunction != "" && f.sleepQuality in SleepQualities && f.smokingStatus in SmokingStatuses
      && f.alcoholConsumption in AlcoholLevels && f.maritalStatus in MaritalStatuses
      && f.physicalActivity != "" && f.wakeUpTime != "" && f.bedTime != ""
      && f.waterIntake.Some? && f.waterIntake.value >= 0.0
    ensures f.waterIntake.None? ==> r[|r| - 1] == Issue(["waterIntake"], None)
  {
    Required("intestinalFunction", f.intestinalFunction, IntestinalFunctionRequired)
    + OneOf("sleepQuality", f.sleepQuality, SleepQualities)
    + OneOf("smokingStatus", f.smokingStatus, SmokingStatuses)
    + OneOf("alcoholConsumption", f.alcoholConsumption, AlcoholLevels)
    + OneOf("maritalStatus", f.maritalStatus, MaritalStatuses)
    + Required("physicalActivity", f.physicalActivity, PhysicalActivityRequired)
    + Required("wakeUpTime", f.wakeUpTime, WakeUpTimeRequired)
    + Required("bedTime", f.bedTime, BedTimeRequired)
    + RequiredNumber("waterIntake", f.waterIntake, WaterIntakeNegative)
  }

  function MetricsIssues(f: IntakeForm): (r: seq<Issue>)
    ensures r == [] <==>
      0.0 <= f.height.value && f.height.unit in LengthUnits
      && 0.0 <= f.weight.value && f.weight.unit in WeightUnits
      && (f.abdominalCircumference.Some? ==>
            0.0 <= f.abdominalCircumference.value.value && f.abdominalCircumference.value.unit in LengthUnits)
      && (f.waistCircumference.Some? ==>
            0.0 <= f.waistCircumference.value.value && f.waistCircumference.value.unit in LengthUnits)
      && (f.chestCircumference.Some? ==>
            0.0 <= f.chestCircumference.value.value && f.chestCircumference.value.unit in LengthUnits)
  {
    MeasureIssues("height", f.height, LengthUnits)
    + MeasureIssues("weight", f.weight, WeightUnits)
    + OptionalMeasure("abdominalCircumference", f.abdominalCircumference, LengthUnits)
    + OptionalMeasure("waistCircumference", f.waistCircumference, LengthUnits)
    + OptionalMeasure("chestCircumference", f.chestCircumference, LengthUnits)
  }

  function LabIssues(f: IntakeForm): (r: seq<Issue>)
    ensures r == [] <==>
      (f.hdlCholesterol.Some? ==> f.hdlCholesterol.value >= 0.0)
      && (f.ldlCholesterol.Some? ==> f.ldlCholesterol.value >= 0.0)
      && (f.totalCholesterol.Some? ==> f.totalCholesterol.value >= 0.0)
      && (f.triglycerides.Some? ==> f.triglycerides.value >= 0.0)
  {
    OptionalBetween("hdlCholesterol", f.hdlCholesterol, 0.0, Some(HdlNegative), None, None)
    + OptionalBetween("ldlCholesterol", f.ldlCholesterol, 0.0, Some(LdlNegative), None, None)
    + OptionalBetween("totalCholesterol", f.totalCholesterol, 0.0, Some(TotalCholesterolNegative), None, None)
    + OptionalBetween("triglycerides", f.triglycerides, 0.0, Some(TriglyceridesNegative), None, None)
  }

  function CompositionIssues(f: IntakeForm): (r: seq<Issue>)
    ensures r == [] <==>
      (f.visceralFat.Some? ==> f.visceralFat.value >= 0.0)
      && (f.muscleMass.Some? ==> f.muscleMass.value >= 0.0)
      && (f.bodyFatPercentage.Some? ==> 0.0 <= f.bodyFatPercentage.value <= 100.0)
      && (f.muscleMassPercentage.Some? ==> 0.0 <= f.muscleMassPercentage.value <= 100.0)
      && (f.bodyWaterPercentage.Some? ==> 0.0 <= f.bodyWaterPercentage.value <= 100.0)
      && (f.bmi.Some? ==> 10.0 <= f.bmi.value <= 50.0)
  {
    OptionalBetween("visceralFat", f.visceralFat, 0.0, Some(VisceralFatNegative), None, None)
    + OptionalBetween("muscleMass", f.muscleMass, 0.0, Some(MuscleMassNegative), None, None)
    + OptionalBetween("bodyFatPercentage", f.bodyFatPercentage, 0.0, None, Some(100.0), None)
    + OptionalBetween("muscleMassPercentage", f.muscleMassPercentage, 0.0, None, Some(100.0), None)
    + OptionalBetween("bodyWaterPercentage", f.bodyWaterPercentage, 0.0, None, Some(100.0), None)
    + OptionalBetween("bmi", f.bmi, 10.0, Some(BmiTooLow), Some(50.0), Some(BmiTooHigh))
  }

  function GoalIssues(f: IntakeForm): (r: seq<Issue>)
    ensures r == [] <==>
      f.activityLevel in ActivityLevels && f.occupationType in OccupationTypes
      && f.dietType in DietTypes && f.primaryGoal in PrimaryGoals
      && (f.targetWeight.Some? ==> 0.0 <= f.targetWeight.value.value && f.targetWeight.value.unit in WeightUnits)
  {
    OneOf("activityLevel", f.activityLevel, ActivityLevels)
    + OneOf("occupationType", f.occupationType, OccupationTypes)
    + OneOf("dietType", f.dietType, DietTypes)
    + OneOf("primaryGoal", f.primaryGoal, PrimaryGoals)
    + OptionalMeasure("targetWeight", f.targetWeight, WeightUnits)
  }

  function HabitIssues(f: IntakeForm, c: Checks): (r: seq<Issue>)
    ensures r == [] <==>
      0.0 <= f.dailyWaterIntake <= 20.0 && c.oneDecimal(f.dailyWaterIntake)
      && 0.0 <= f.averageSleepDuration <= 24.0 && c.oneDecimal(f.averageSleepDuration)
  {
    Bounded("hydration", "dailyWaterIntake", f.dailyWaterIntake, 20.0, c,
            DailyWaterNegative, DailyWaterTooHigh,
            DailyWaterDecimals)
    + Bounded("sleep", "averageDuration", f.averageSleepDuration, 24.0, c,
              SleepNegative, SleepTooHigh,
              SleepDecimals)
  }

  /** `clientFormSchema.safeParse`: every issue, in the order of the schema's
      fields. */
  function Issues(f: IntakeForm, c: Checks): seq<Issue> {
    GeneralIssues(f, c) + HistoryIssues(f) + MetricsIssues(f) + LabIssues(f)
    + CompositionIssues(f) + GoalIssues(f) + HabitIssues(f, c)
  }

  /** The schema as one statement about a form: what a form must satisfy,
      constraint by constraint. */
  predicate MeetsSchema(f: IntakeForm, c: Checks) {
    // required strings
    f.name != "" && f.dateOfBirth != "" && f.occupation != "" && f.appointmentReason != ""
    && f.expectations != "" && f.clinicalObjective != "" && f.intestinalFunction != ""
    && f.physicalActivity != "" && f.wakeUpTime != "" && f.bedTime != ""
    && c.isEmail(f.email)
    // enumerations
    && f.gender in Genders && f.sleepQuality in SleepQualities && f.smokingStatus in SmokingStatuses
    && f.alcoholConsumption in AlcoholLevels && f.maritalStatus in MaritalStatuses
    && f.activityLevel in ActivityLevels && f.occupationType in OccupationTypes
    && f.dietType in DietTypes && f.primaryGoal in PrimaryGoals
    // measures
    && f.height.value >= 0.0 && f.height.unit in LengthUnits
    && f.weight.value >= 0.0 && f.weight.unit in WeightUnits
    && (f.abdominalCircumference.Some? ==>
          f.abdominalCircumference.value.value >= 0.0 && f.abdominalCircumference.value.unit in LengthUnits)
    && (f.waistCircumference.Some? ==>
          f.waistCircumference.value.value >= 0.0 && f.waistCircumference.value.unit in LengthUnits)
    && (f.chestCircumference.Some? ==>
          f.chestCircumference.value.value >= 0.0 && f.chestCircumference.value.unit in LengthUnits)
    && (f.targetWeight.Some? ==>
          f.targetWeight.value.value >= 0.0 && f.targetWeight.value.unit in WeightUnits)
    // numbers
    && f.waterIntake.Some? && f.waterIntake.value >= 0.0
    && (f.hdlCholesterol.Some? ==> f.hdlCholesterol.value >= 0.0)
    && (f.ldlCholesterol.Some? ==> f.ldlCholesterol.value >= 0.0)
    && (f.totalCholesterol.Some? ==> f.totalCholesterol.value >= 0.0)
    && (f.triglycerides.Some? ==> f.triglycerides.value >= 0.0)
    && (f.visceralFat.Some? ==> f.visceralFat.value >= 0.0)
    && (f.muscleMass.Some? ==> f.muscleMass.value >= 0.0)
    && (f.bodyFatPercentage.Some? ==> 0.0 <= f.bodyFatPercentage.value <= 100.0)
    && (f.muscleMassPercentage.Some? ==> 0.0 <= f.muscleMassPercentage.value <= 100.0)
    && (f.bodyWaterPercentage.Some? ==> 0.0 <= f.bodyWaterPercentage.value <= 100.0)
    && (f.bmi.Some? ==> 10.0 <= f.bmi.value <= 50.0)
    && 0.0 <= f.dailyWaterIntake <= 20.0 && c.oneDecimal(f.dailyWaterIntake)
    && 0.0 <= f.averageSleepDuration <= 24.0 && c.oneDecimal(f.averageSleepDuration)
  }

  /** The validator reports no issue exactly when the form meets the schema. */
  lemma IssuesEmptyIffMeetsSchema(f: IntakeForm, c: Checks)
    ensures Issues(f, c) == [] <==> MeetsSchema(f, c)
  {
    var g := GeneralIssues(f, c);
    var h := HistoryIssues(f);
    var m := MetricsIssues(f);
    var l := LabIssues(f);
    var b := CompositionIssues(f);
    var o := GoalIssues(f);
    var w := HabitIssues(f, c);
    assert Issues(f, c) == g + h + m + l + b + o + w;
    assert |Issues(f, c)| == |g| + |h| + |m| + |l| + |b| + |o| + |w|;
  }

  /** An empty required string is reported under its own name with the
      schema's message. */
  lemma EmptyNameIsReported(f: IntakeForm, c: Checks)
    requires f.name == ""
    ensures Issue(["name"], Some(NameRequired)) in Issues(f, c)
  {
    var g := GeneralIssues(f, c);
    assert Issues(f, c)[0] == g[0];
  }

  /** A form that never set `waterIntake` is reported under it, so it never
      meets the schema. */
  lemma MissingWaterIntakeIsReported(f: IntakeForm, c: Checks)
    requires f.waterIntake.None?
    ensures Issue(["waterIntake"], None) in Issues(f, c)
    ensures !MeetsSchema(f, c)
  {
    var x := Issue(["waterIntake"], None);
    var h := HistoryIssues(f);
    assert x in h;
    assert Issues(f, c) == GeneralIssues(f, c) + h + MetricsIssues(f) + LabIssues(f)
                           + CompositionIssues(f) + GoalIssues(f) + HabitIssues(f, c);
  }

  /** A BMI below 10, such as the wizard's default 0, is reported under
      `bmi` with the schema's message. */
  lemma LowBmiIsReported(f: IntakeForm, c: Checks)
    requires f.bmi.Some? && f.bmi.value < 10.0
    ensures Issue(["bmi"], Some(BmiTooLow)) in Issues(f, c)
  {
    var x := Issue(["bmi"], Some(BmiTooLow));
    var b := CompositionIssues(f);
    assert x in b;
    assert Issues(f, c) == GeneralIssues(f, c) + HistoryIssues(f) + MetricsIssues(f) + LabIssues(f)
                           + b + GoalIssues(f) + HabitIssues(f, c);
  }

  /** The form with every optional field left out. */
  function WithoutOptionals(f: IntakeForm): (g: IntakeForm)
    ensures g.phone.None? && g.exerciseRoutine.None? && g.bmi.None? && g.targetWeight.None?
  {
    f.(phone := None, foodPreferences := None, foodAllergies := None, foodIntolerances := None,
       abdominalCircumference := None, waistCircumference := None, chestCircumference := None,
       hdlCholesterol := None, ldlCholesterol := None, totalCholesterol := None, triglycerides := None,
       visceralFat := None, muscleMass := None, bodyFatPercentage := None, muscleMassPercentage := None,
       bodyWaterPercentage := None, bmi := None, exerciseRoutine := None, favoriteFoods := None,
       foodsToAvoid := None, targetWeight := None, healthConcerns := None, supplements := None)
  }

  /** Leaving optional fields out never causes a failure: a valid form stays
      valid without them, and without them no lab, body-composition or
      optional-measure issue remains. */
  lemma AbsentOptionalsNeverFail(f: IntakeForm, c: Checks)
    ensures MeetsSchema(f, c) ==> MeetsSchema(WithoutOptionals(f), c)
    ensures LabIssues(WithoutOptionals(f)) == [] && CompositionIssues(WithoutOptionals(f)) == []
    ensures OptionalMeasure("targetWeight", WithoutOptionals(f).targetWeight, WeightUnits) == []
  {
  }
}

=== FILE: clients_page.dfy ===
/** The clients page (src/pages/Clients.tsx): a case-insensitive search over
    names and e-mail addresses, the initials shown for each client, the
    choice between spinner, empty message and rows, and the loading flag
    `loadClients` clears. */
module ClientsPage {
  import opened Wrappers
  import opened Text
  import opened Sequences

  /** The fields of a client the page reads. */
  datatype Client = Client(id: string, name: string, email: string)

  /** The search keeps a client whose lower-cased name or e-mail contains the
      lower-cased query. */
  predicate Matches(c: Client, query: string) {
    Includes(ToLower(c.name), ToLower(query)) || Includes(ToLower(c.email), ToLower(query))
  }

  /** `filteredClients`. */
  function FilterClients(clients: seq<Client>, query: string): (r: seq<Client>)
    ensures IsSubsequence(r, clients)
    ensures forall i :: 0 <= i < |r| ==> Matches(r[i], query)
    ensures forall c :: multiset(r)[c] == if Matches(c, query) then multiset(clients)[c] else 0
  {
    var p := (c: Client) => Matches(c, query);
    forall c ensures multiset(Filter(clients, p))[c] == if Matches(c, query) then multiset(clients)[c] else 0 {
      FilterCounts(clients, p, c);
    }
    Filter(clients, p)
  }

  /** An empty query keeps every client, in order. */
  lemma EmptyQueryKeepsAll(clients: seq<Client>)
    ensures FilterClients(clients, "") == clients
  {
    forall i | 0 <= i < |clients|
      ensures Matches(clients[i], "")
    {
      IncludesEmptyAndSelf(ToLower(clients[i].name));
    }
    FilterKeepsAll(clients, (c: Client) => Matches(c, ""));
  }

  /** The case of the query does not matter. */
  lemma QueryCaseIsIgnored(clients: seq<Client>, query: string)
    ensures FilterClients(clients, ToLower(query)) == FilterClients(clients, query)
  {
    ToLowerIdempotent(query);
    FilterSameTest(clients, (c: Client) => Matches(c, ToLower(query)), (c: Client) => Matches(c, query));
  }

  /** A client whose name is the query, in any case, is kept. */
  lemma NameQueryKeepsClient(clients: seq<Client>, i: int)
    requires 0 <= i < |clients|
    ensures clients[i] in FilterClients(clients, clients[i].name)
  {
    var c := clients[i];
    IncludesEmptyAndSelf(ToLower(c.name));
    FilterCounts(clients, (x: Client) => Matches(x, c.name), c);
    assert multiset(clients)[c] > 0;
  }

  /** The first characters of the pieces, each empty piece giving nothing
      (`n[0]` is `undefined`, which `join` prints as nothing). */
  function FirstChars(parts: seq<string>): (r: string)
    ensures |r| <= |parts|
    decreases |parts|
  {
    if parts == [] then []
    else (if parts[0] == [] then [] else [parts[0][0]]) + FirstChars(parts[1..])
  }

  lemma {:induction false} FirstCharsAppend(a: seq<string>, b: seq<string>)
    ensures FirstChars(a + b) == FirstChars(a) + FirstChars(b)
    decreases |a|
  {
    if a != [] {
      var h: string := if a[0] == [] then [] else [a[0][0]];
      assert (a + b)[0] == a[0] && (a + b)[1..] == a[1..] + b;
      FirstCharsAppend(a[1..], b);
      assert FirstChars(a) == h + FirstChars(a[1..]);
      assert FirstChars(a + b) == h + FirstChars(a[1..] + b);
    } else {
      assert a + b == b;
    }
  }

  /** `name.split(' ').map(n => n[0]).join('')`. */
  function Initials(name: string): (r: string)
    ensures |r| <= |name| + 1
    ensures ' ' !in r
  {
    var parts := Split(name, ' ');
    InitialsAvoidSeparator(parts);
    SplitLength(name, ' ');
    FirstChars(parts)
  }

  lemma {:induction false} InitialsAvoidSeparator(parts: seq<string>)
    requires forall i :: 0 <= i < |parts| ==> ' ' !in parts[i]
    ensures ' ' !in FirstChars(parts)
    decreases |parts|
  {
    if parts != [] {
      InitialsAvoidSeparator(parts[1..]);
    }
  }

  /** A split has at most one more piece than the text has characters. */
  lemma {:induction false} SplitLength(s: string, sep: char)
    ensures |Split(s, sep)| <= |s| + 1
    decreases |s|
  {
    if s != [] {
      SplitLength(s[1..], sep);
    }
  }

  /** An empty name has no initials. */
  lemma InitialsOfEmpty()
    ensures Initials("") == ""
  {
    assert Split("", ' ') == [""];
  }

  /** The initials of two names joined by a space are the initials of each,
      one after the other; doubled spaces add nothing. */
  lemma InitialsOfJoin(a: string, b: string)
    ensures Initials(a + " " + b) == Initials(a) + Initials(b)
  {
    assert a + " " + b == a + [' '] + b;
    SplitAppend(a, b, ' ');
    FirstCharsAppend(Split(a, ' '), Split(b, ' '));
  }

  /** A single word gives its first letter. */
  lemma InitialsOfWord(w: string)
    requires w != [] && ' ' !in w
    ensures Initials(w) == [w[0]]
  {
    SplitNoSeparator(w, ' ');
    assert FirstChars([w]) == [w[0]] + FirstChars([]);
  }

  /** What `ClientsList` shows. */
  datatype View = Spinner | NoClients | Rows(clients: seq<Client>, initials: seq<string>)

  /** `ClientsList`: the spinner while loading whatever the list, the empty
      message for an empty list, otherwise one row per client with its
      initials. */
  function ListView(clients: seq<Client>, isLoading: bool): (v: View)
    ensures isLoading <==> v.Spinner?
    ensures v.NoClients? <==> !isLoading && clients == []
    ensures v.Rows? ==> v.clients == clients && |v.initials| == |clients| && clients != []
    ensures v.Rows? ==> forall i :: 0 <= i < |clients| ==> v.initials[i] == Initials(clients[i].name)
  {
    if isLoading then Spinner
    else if |clients| == 0 then NoClients
    else Rows(clients, seq(|clients|, i requires 0 <= i < |clients| => Initials(clients[i].name)))
  }

  /** The page's state. */
  class Page {
    var clients: seq<Client>
    var isLoading: bool
    var searchQuery: string

    /** Loading, no clients, an empty query. */
    constructor ()
      ensures clients == [] && isLoading && searchQuery == ""
    {
      clients := [];
      isLoading := true;
      searchQuery := "";
    }

    /** `loadClients` once `clientsService.getAll()` has settled: `None` for a
        failure, which keeps the list. Loading ends either way. */
    method LoadClients(response: Option<seq<Client>>)
      modifies this
      ensures !isLoading
      ensures clients == (if response.Some? then response.value else old(clients))
      ensures searchQuery == old(searchQuery)
    {
      if response.Some? {
        clients := response.value;
      }
      isLoading := false;
    }

    /** Typing in the search box. */
    method SetQuery(query: string)
      modifies this
      ensures searchQuery == query
      ensures clients == old(clients) && isLoading == old(isLoading)
    {
      searchQuery := query;
    }

    /** What the page shows now. */
    function Shown(): View
      reads this
    {
      ListView(FilterClients(clients, searchQuery), isLoading)
    }
  }

  /** After a failed first load the page shows the empty message, not the
      spinner for ever. */
  method FailedFirstLoad() returns (p: Page)
    ensures p.Shown() == NoClients
  {
    p := new Page();
    p.LoadClients(None);
  }
}

=== FILE: clients_slice.dfy ===
/** The clients slice of the store: a record of the loaded client list, the
    selected client, the fetch status and the last error, changed in place by
    one reducer per action (src/store/slices/clientsSlice.ts). Only the
    transitions on action payloads are modelled; the async thunks that
    produce those payloads are not. */
module ClientsSlice {
  import opened Wrappers
  import opened Records
  import Sequences

  datatype Status = Idle | Loading | Succeeded | Failed

  /** The error recorded when a fetch is rejected without a message. */
  const FetchFailedMessage: string := "Failed to fetch clients"

  /** `action.error.message || 'Failed to fetch clients'`: an absent or empty
      message falls back to the fixed text. */
  function RejectionError(message: Option<string>): (e: string)
    ensures message.Some? && message.value != "" ==> e == message.value
    ensures message.None? || message.value == "" ==> e == FetchFailedMessage
    ensures e != ""
  {
    if message.Some? && message.value != "" then message.value else FetchFailedMessage
  }

  /** The update reducer on the list: the first item with the payload's id is
      replaced by the payload; with no such item the list is unchanged. */
  function ReplaceFirstWithId(items: seq<Record>, client: Record): (r: seq<Record>)
    ensures |r| == |items|
    ensures forall j :: 0 <= j < |items| && j != FirstIndexWithId(items, IdOf(client)) ==> r[j] == items[j]
    ensures FirstIndexWithId(items, IdOf(client)) >= 0 ==> r[FirstIndexWithId(items, IdOf(client))] == client
    ensures (forall j :: 0 <= j < |items| ==> IdOf(items[j]) != IdOf(client)) ==> r == items
  {
    var i := FirstIndexWithId(items, IdOf(client));
    if i == -1 then items else items[i := client]
  }

  /** `items.filter(c => c.id !== id)`. */
  function WithoutId(items: seq<Record>, id: string): seq<Record> {
    Sequences.Filter(items, (c: Record) => IdOf(c) != Str(id))
  }

  /** Deleting keeps the other items in their order, each as often as before,
      and no item with the id survives. */
  lemma WithoutIdKeepsOthers(items: seq<Record>, id: string)
    ensures Sequences.IsSubsequence(WithoutId(items, id), items)
    ensures forall c | c in WithoutId(items, id) :: IdOf(c) != Str(id)
    ensures forall c | c in items && IdOf(c) != Str(id) ::
      multiset(WithoutId(items, id))[c] == multiset(items)[c]
    ensures (forall c | c in items :: IdOf(c) != Str(id)) ==> WithoutId(items, id) == items
  {
    var p := (c: Record) => IdOf(c) != Str(id);
    forall c | c in items && IdOf(c) != Str(id)
      ensures multiset(WithoutId(items, id))[c] == multiset(items)[c]
    {
      Sequences.FilterCounts(items, p, c);
    }
    if forall c | c in items :: IdOf(c) != Str(id) {
      Sequences.FilterKeepsAll(items, p);
    }
  }

  /** `selectClientById`: the first loaded client with the id, or nothing. */
  function SelectClientById(items: seq<Record>, clientId: string): (r: Option<Record>)
    ensures r.Some? <==> exists j :: 0 <= j < |items| && IdOf(items[j]) == Str(clientId)
    ensures r.Some? ==> IdOf(r.value) == Str(clientId)
    ensures r.Some? ==> (exists j :: 0 <= j < |items| && items[j] == r.value &&
                                     forall k :: 0 <= k < j ==> IdOf(items[k]) != Str(clientId))
  {
    var j := FirstIndexWithId(items, Str(clientId));
    if j == -1 then None else Some(items[j])
  }

  class ClientsStore {
    var items: seq<Record>
    var selectedClient: Option<Record>
    var status: Status
    var error: Option<string>

    /** `selectedClient?.id`: undefined when nothing is selected. */
    function SelectedId(): Value
      reads this
    {
      if selectedClient.Some? then IdOf(selectedClient.value) else Undefined
    }

    /** The initial state: nothing loaded, nothing selected, idle, no error. */
    constructor ()
      ensures items == [] && selectedClient == None && status == Idle && error == None
    {
      items := [];
      selectedClient := None;
      status := Idle;
      error := None;
    }

    method SetSelectedClient(client: Option<Record>)
      modifies this
      ensures selectedClient == client
      ensures items == old(items) && status == old(status) && error == old(error)
    {
      selectedClient := client;
    }

    method ClearError()
      modifies this
      ensures error == None
      ensures items == old(items) && selectedClient == old(selectedClient) && status == old(status)
    {
      error := None;
    }

    method FetchPending()
      modifies this
      ensures status == Loading
      ensures items == old(items) && selectedClient == old(selectedClient) && error == old(error)
    {
      status := Loading;
    }

    method FetchFulfilled(payload: seq<Record>)
      modifies this
      ensures status == Succeeded && items == payload
      ensures selectedClient == old(selectedClient) && error == old(error)
    {
      status := Succeeded;
      items := payload;
    }

    method FetchRejected(message: Option<string>)
      modifies this
      ensures status == Failed && error == Some(RejectionError(message))
      ensures items == old(items) && selectedClient == old(selectedClient)
    {
      status := Failed;
      error := Some(RejectionError(message));
    }

    method FetchByIdFulfilled(client: Record)
      modifies this
      ensures selectedClient == Some(client)
      ensures items == old(items) && status == old(status) && error == old(error)
    {
      selectedClient := Some(client);
    }

    method CreateFulfilled(client: Record)
      modifies this
      ensures items == old(items) + [client]
      ensures |items| == |old(items)| + 1 && items[..|old(items)|] == old(items)
      ensures selectedClient == old(selectedClient) && status == old(status) && error == old(error)
    {
      items := items + [client];
    }

    method UpdateFulfilled(client: Record)
      modifies this
      ensures items == ReplaceFirstWithId(old(items), client)
      ensures selectedClient == if old(SelectedId()) == IdOf(client) then Some(client) else old(selectedClient)
      ensures status == old(status) && error == old(error)
    {
      var index := FindIndex(items, IdOf(client));
      if index != -1 {
        items := items[index := client];
      }
      if SelectedId() == IdOf(client) {
        selectedClient := Some(client);
      }
    }

    method DeleteFulfilled(id: string)
      modifies this
      ensures items == WithoutId(old(items), id)
      ensures selectedClient == if old(SelectedId()) == Str(id) then None else old(selectedClient)
      ensures status == old(status) && error == old(error)
    {
      items := WithoutId(items, id);
      if SelectedId() == Str(id) {
        selectedClient := None;
      }
    }
  }
}

=== FILE: date_picker.dfy ===
/** The date picker (src/components/common/DatePicker.tsx): a popup showing
    one month as a grid of days, with buttons to step a month back or
    forward, a year picker showing a window of years that steps by a decade,
    and a day button that emits the chosen date as `yyyy-MM-dd` and closes
    the popup. The shown month is kept as the year and month of a `Date`;
    the day of that `Date` is never read and is not modelled. */
module DatePicker {
  import opened Wrappers
  import opened Text
  import opened Dates

  /** The window of years the year picker lists. */
  datatype YearRange = YearRange(start: int, end: int)

  /** `handlePrevYear` / `handleNextYear` move both ends by `delta`. */
  function Shift(r: YearRange, delta: int): (s: YearRange)
    ensures s.end - s.start == r.end - r.start
    ensures s.start == r.start + delta
  {
    YearRange(r.start + delta, r.end + delta)
  }

  /** A step back and a step forward, in either order, restore the window. */
  lemma ShiftBackAndForth(r: YearRange)
    ensures Shift(Shift(r, -10), 10) == r && Shift(Shift(r, 10), -10) == r
  {
  }

  /** `years`: `Array.from({length: end - start + 1}, (_, i) => start + i)`; a
      negative length gives no years. */
  function Years(r: YearRange): (ys: seq<int>)
    ensures |ys| == if r.end < r.start then 0 else r.end - r.start + 1
    ensures forall i :: 0 <= i < |ys| ==> ys[i] == r.start + i
    ensures forall i, j :: 0 <= i < j < |ys| ==> ys[i] < ys[j]
    ensures forall y :: y in ys <==> r.start <= y <= r.end
  {
    var n := if r.end < r.start then 0 else r.end - r.start + 1;
    var ys := seq(n, i => r.start + i);
    forall y | r.start <= y <= r.end
      ensures y in ys
    {
      assert ys[y - r.start] == y;
    }
    ys
  }

  /** One cell of the month grid: a leading blank or a day button. */
  datatype Cell = Blank | DayButton(day: int)

  /** The month grid for the shown `year` and `month`: `firstDayOfMonth`
      blanks, then the days 1 to `daysInMonth`. */
  function Grid(year: int, month: int): (cells: seq<Cell>)
    requires 0 <= month < 12
    ensures var first := Weekday(FullYearArg(year), month, 1);
            var n := DaysInMonth(FullYearArg(year), month);
            |cells| == first + n
            && (forall i :: 0 <= i < first ==> cells[i] == Blank)
            && (forall d :: 1 <= d <= n ==> cells[first + d - 1] == DayButton(d))
  {
    var first := Weekday(FullYearArg(year), month, 1);
    seq(first, _ => Blank) + seq(LastDayOfMonth(year, month), i => DayButton(i + 1))
  }

  /** `handlePrevMonth` and `handleNextMonth` for a shown year outside 0-99
      move exactly one month, wrapping the year at January and December. */
  lemma MonthStepsMoveOneMonth(year: int, month: int)
    requires 0 <= month < 12 && !(0 <= year <= 99)
    ensures MonthStart(year, month + 1) == Dates.NextMonth(year, month)
    ensures MonthStart(year, month - 1) == if month == 0 then (year - 1, 11) else (year, month - 1)
  {
  }

  /** Stepping back then forward returns to the shown month, unless the step
      back lands in a year 0-99, which `new Date` then reads as 1900-1999. */
  lemma PrevThenNext(year: int, month: int)
    requires 0 <= month < 12 && !(0 <= year <= 100)
    ensures var (y, m) := MonthStart(year, month - 1);
            MonthStart(y, m + 1) == (year, month)
  {
  }

  /** The exception: from January of year 100 a step back shows December of
      99, and a step forward from there shows January 2000. */
  lemma PrevThenNextFromYear100()
    ensures MonthStart(100, -1) == (99, 11)
    ensures MonthStart(99, 12) == (2000, 0)
  {
  }

  /** The blanks and days of one month's grid end where the next month's
      blanks do: the next grid has (blanks + days) mod 7 blanks. */
  lemma GridContinues(year: int, month: int)
    requires 0 <= month < 12 && !(0 <= year <= 99) && !(0 <= year + 1 <= 99)
    ensures var (y, m) := MonthStart(year, month + 1);
            |Grid(y, m)| - DaysInMonth(FullYearArg(y), m) == |Grid(year, month)| % 7
  {
    MonthStepsMoveOneMonth(year, month);
    FirstWeekdayOfNextMonth(year, month);
  }

  /** The text `handleDateSelect` emits for a day of the shown month: the
      `yyyy-MM-dd` of `new Date(year, month, day)`, which reads back as that
      date (its era year, its month counted from 1, the day). */
  function ChosenDate(year: int, month: int, day: int): (s: string)
    requires 0 <= month < 12 && 1 <= day <= LastDayOfMonth(year, month)
    ensures s == FormatIsoDate(FullYearArg(year), month, day)
    ensures ParseIsoDate(s) == Some(IsoDate(EraYear(FullYearArg(year)), month + 1, day))
  {
    FormatIsoDateRoundTrip(FullYearArg(year), month, day);
    FormatIsoDate(FullYearArg(year), month, day)
  }

  /** A shown year and month with a day of that month. */
  predicate IsDayOf(d: (int, int, int)) {
    0 <= d.1 < 12 && 1 <= d.2 <= LastDayOfMonth(d.0, d.1)
  }

  class DatePickerState {
    /** The year and month of `currentDate`. */
    var year: int
    var month: int
    var range: YearRange
    var isOpen: bool
    var showYearPicker: bool
    /** Every date handed to `format` for `onChange`, oldest first: the shown
        year and month and the chosen day. `onChange` receives the
        `ChosenDate` of each. */
    var picked: seq<(int, int, int)>

    ghost predicate Valid()
      reads this
    {
      && 0 <= month < 12
      && forall i :: 0 <= i < |picked| ==> IsDayOf(picked[i])
    }

    /** The initial state for a shown date and the current year (both read
        from the clock or the `value` prop): the picker is closed and lists
        1900 to ten years from now. */
    constructor (year: int, month: int, currentYear: int)
      requires 0 <= month < 12
      ensures Valid()
      ensures this.year == year && this.month == month
      ensures range == YearRange(1900, currentYear + 10)
      ensures !isOpen && !showYearPicker && picked == []
    {
      this.year := year;
      this.month := month;
      range := YearRange(1900, currentYear + 10);
      isOpen := false;
      showYearPicker := false;
      picked := [];
    }

    /** Clicking the input opens the popup. */
    method Open()
      modifies this
      ensures isOpen
      ensures year == old(year) && month == old(month) && range == old(range)
      ensures showYearPicker == old(showYearPicker) && picked == old(picked)
    {
      isOpen := true;
    }

    /** Clicking the overlay closes it. */
    method Close()
      modifies this
      ensures !isOpen
      ensures year == old(year) && month == old(month) && range == old(range)
      ensures showYearPicker == old(showYearPicker) && picked == old(picked)
    {
      isOpen := false;
    }

    /** Clicking the shown year switches to the year picker. */
    method OpenYearPicker()
      modifies this
      ensures showYearPicker
      ensures year == old(year) && month == old(month) && range == old(range)
      ensures isOpen == old(isOpen) && picked == old(picked)
    {
      showYearPicker := true;
    }

    /** `handlePrevMonth`: `new Date(year, month - 1)`. */
    method PrevMonth()
      requires Valid()
      modifies this
      ensures Valid()
      ensures (year, month) == MonthStart(old(year), old(month) - 1)
      ensures range == old(range) && isOpen == old(isOpen)
      ensures showYearPicker == old(showYearPicker) && picked == old(picked)
    {
      var (y, m) := MonthStart(year, month - 1);
      year, month := y, m;
    }

    /** `handleNextMonth`: `new Date(year, month + 1)`. */
    method NextMonth()
      requires Valid()
      modifies this
      ensures Valid()
      ensures (year, month) == MonthStart(old(year), old(month) + 1)
      ensures range == old(range) && isOpen == old(isOpen)
      ensures showYearPicker == old(showYearPicker) && picked == old(picked)
    {
      var (y, m) := MonthStart(year, month + 1);
      year, month := y, m;
    }

    /** `handlePrevYear`: the window moves back a decade. */
    method PrevDecade()
      modifies this
      ensures range == Shift(old(range), -10)
      ensures year == old(year) && month == old(month) && isOpen == old(isOpen)
      ensures showYearPicker == old(showYearPicker) && picked == old(picked)
    {
      range := YearRange(range.start - 10, range.end - 10);
    }

    /** `handleNextYear`: the window moves forward a decade. */
    method NextDecade()
      modifies this
      ensures range == Shift(old(range), 10)
      ensures year == old(year) && month == old(month) && isOpen == old(isOpen)
      ensures showYearPicker == old(showYearPicker) && picked == old(picked)
    {
      range := YearRange(range.start + 10, range.end + 10);
    }

    /** `handleYearSelect`: `new Date(y, month)` keeps the month, shows the
        chosen year (a year 0-99 is read as 1900-1999) and closes the year
        picker. */
    method SelectYear(y: int)
      requires Valid()
      modifies this
      ensures Valid()
      ensures month == old(month) && year == FullYearArg(y)
      ensures !showYearPicker
      ensures range == old(range) && isOpen == old(isOpen) && picked == old(picked)
    {
      var (y', m') := MonthStart(y, month);
      year, month := y', m';
      showYearPicker := false;
    }

    /** `handleDateSelect`: hands the chosen day of the shown month to
        `format` for `onChange` and closes the popup. Only the grid's day buttons call
        it, so `day` is a day of that month. */
    method SelectDate(day: int)
      requires Valid() && 1 <= day <= LastDayOfMonth(year, month)
      modifies this
      ensures Valid()
      ensures year == old(year) && month == old(month) && range == old(range)
      ensures picked == old(picked) + [(old(year), old(month), day)]
      ensures !isOpen && showYearPicker == old(showYearPicker)
    {
      picked := picked + [(year, month, day)];
      isOpen := false;
    }
  }
}

=== FILE: dates.dfy ===
/** The calendar arithmetic the dashboard takes from JavaScript's `Date` and
    from date-fns `format`: Gregorian month lengths, the weekday of a date,
    the normalisation `new Date(year, month)` applies to its arguments, and
    the `yyyy-MM-dd` text of a date. Dates are (year, month 0-11, day 1-31)
    triples in the proleptic Gregorian calendar; time zones and the limited
    range of `Date` are not modelled. */
module Dates {
  import opened Wrappers
  import opened Text

  predicate IsLeapYear(y: int) {
    y % 4 == 0 && (y % 100 != 0 || y % 400 == 0)
  }

  /** The Gregorian length of month `m` (0 = January) of year `y`. */
  function DaysInMonth(y: int, m: int): (n: int)
    requires 0 <= m < 12
    ensures 28 <= n <= 31
    ensures m == 1 ==> (n == 29 <==> IsLeapYear(y)) && (n == 28 <==> !IsLeapYear(y))
    ensures m != 1 ==> n == (if m in {3, 5, 8, 10} then 30 else 31)
  {
    if m == 1 then (if IsLeapYear(y) then 29 else 28)
    else if m in {3, 5, 8, 10} then 30
    else 31
  }

  /** Days in the months of year `y` before month `m`. */
  function DaysBeforeMonth(y: int, m: int): int
    requires 0 <= m <= 12
  {
    [0, 31, 59, 90, 120, 151, 181, 212, 243, 273, 304, 334, 365][m]
      + (if m >= 2 && IsLeapYear(y) then 1 else 0)
  }

  /** The months before `m + 1` are those before `m` and `m` itself. */
  lemma DaysBeforeNextMonth(y: int, m: int)
    requires 0 <= m < 12
    ensures DaysBeforeMonth(y, m + 1) == DaysBeforeMonth(y, m) + DaysInMonth(y, m)
  {
  }

  lemma YearLength(y: int)
    ensures DaysBeforeMonth(y, 12) == if IsLeapYear(y) then 366 else 365
  {
  }

  /** Leap years among the years from 0 up to `y`, counted with a sign for
      years before 0 (`/` rounds down here, as the divisors are positive). */
  function LeapYearsBefore(y: int): int {
    (y + 3) / 4 - (y + 99) / 100 + (y + 399) / 400
  }

  lemma LeapYearsStep(y: int)
    ensures LeapYearsBefore(y + 1) == LeapYearsBefore(y) + (if IsLeapYear(y) then 1 else 0)
  {
    assert (y + 4) / 4 == (y + 3) / 4 + (if y % 4 == 0 then 1 else 0);
    assert (y + 100) / 100 == (y + 99) / 100 + (if y % 100 == 0 then 1 else 0);
    assert (y + 400) / 400 == (y + 399) / 400 + (if y % 400 == 0 then 1 else 0);
  }

  /** Days from 1 January of year 0 to the given date. */
  function DayNumber(y: int, m: int, d: int): int
    requires 0 <= m < 12
  {
    365 * y + LeapYearsBefore(y) + DaysBeforeMonth(y, m) + d - 1
  }

  /** `getDay()`: 0 is Sunday; 1 January of year 0 was a Saturday. */
  function Weekday(y: int, m: int, d: int): (w: int)
    requires 0 <= m < 12
    ensures 0 <= w < 7
  {
    (DayNumber(y, m, d) + 6) % 7
  }

  /** Two dates whose weekdays are known: 1 January 1970 was a Thursday and
      1 January 2000 a Saturday. */
  lemma KnownWeekdays()
    ensures Weekday(1970, 0, 1) == 4
    ensures Weekday(2000, 0, 1) == 6
  {
  }

  /** The month after month `m` of year `y`. */
  function NextMonth(y: int, m: int): (r: (int, int))
    requires 0 <= m < 12
    ensures 0 <= r.1 < 12
    ensures r == if m == 11 then (y + 1, 0) else (y, m + 1)
  {
    if m == 11 then (y + 1, 0) else (y, m + 1)
  }

  /** The first day of the next month falls a whole month after the first
      of this one. */
  lemma DayNumberOfNextMonth(y: int, m: int)
    requires 0 <= m < 12
    ensures var (y', m') := NextMonth(y, m);
            DayNumber(y', m', 1) == DayNumber(y, m, 1) + DaysInMonth(y, m)
  {
    if m == 11 {
      YearLength(y);
      LeapYearsStep(y);
      assert DayNumber(y + 1, 0, 1) == 365 * y + 365 + LeapYearsBefore(y + 1);
      assert DayNumber(y, 11, 1) == 365 * y + LeapYearsBefore(y) + DaysBeforeMonth(y, 11);
    } else {
      DaysBeforeNextMonth(y, m);
    }
  }

  /** So the weekday of the first of the next month is the weekday of the
      first of this month moved on by this month's length. */
  lemma FirstWeekdayOfNextMonth(y: int, m: int)
    requires 0 <= m < 12
    ensures var (y', m') := NextMonth(y, m);
            Weekday(y', m', 1) == (Weekday(y, m, 1) + DaysInMonth(y, m)) % 7
  {
    DayNumberOfNextMonth(y, m);
    var (y', m') := NextMonth(y, m);
    var n := DayNumber(y, m, 1) + 6;
    var k := DaysInMonth(y, m);
    assert DayNumber(y', m', 1) + 6 == n + k;
    ModAddLeft(n, k);
  }

  lemma ModAddLeft(n: int, k: int)
    ensures (n + k) % 7 == (n % 7 + k) % 7
  {
  }

  /** The year `new Date(year, month, ...)` takes from its first argument:
      0 to 99 mean 1900 to 1999. */
  function FullYearArg(y: int): (r: int)
    ensures 0 <= y <= 99 ==> r == 1900 + y
    ensures !(0 <= y <= 99) ==> r == y
  {
    if 0 <= y <= 99 then 1900 + y else y
  }

  /** `new Date(year, month)`: a month outside 0-11 moves into the next or an
      earlier year. */
  function MonthStart(year: int, month: int): (r: (int, int))
    ensures 0 <= r.1 < 12
    ensures 12 * r.0 + r.1 == 12 * FullYearArg(year) + month
  {
    (FullYearArg(year) + month / 12, month % 12)
  }

  /** `new Date(year, month + 1, 0).getDate()` for a shown month: day 0 of the
      following month is the last day of this one. */
  function LastDayOfMonth(year: int, month: int): (n: int)
    requires 0 <= month < 12
    ensures n == DaysInMonth(FullYearArg(year), month)
  {
    var (y', m') := MonthStart(year, month + 1);
    if m' == 0 then DaysInMonth(y' - 1, 11) else DaysInMonth(y', m' - 1)
  }

  /** date-fns `yyyy`: the year of the era, so 0 is 1 and -1 is 2 (before
      Christ). */
  function EraYear(y: int): (e: nat)
    ensures e >= 1
    ensures y >= 1 ==> e == y
  {
    if y > 0 then y else 1 - y
  }

  /** `format(date, 'yyyy-MM-dd')`: the era year padded to four digits, then
      the month 01-12 and the day, each padded to two. */
  function FormatIsoDate(y: int, m: int, d: int): (r: string)
    requires 0 <= m < 12 && 1 <= d <= 31
    ensures |r| == if |NatToString(EraYear(y))| >= 4 then |NatToString(EraYear(y))| + 6 else 10
    ensures DashedDigits(r)
  {
    Dashed(PadZeros(NatToString(EraYear(y)), 4), TwoDigits(m + 1), TwoDigits(d))
  }

  /** Digits, a dash, two digits, a dash, two digits. */
  predicate DashedDigits(r: string) {
    && |r| >= 6 && r[|r| - 6] == '-' && r[|r| - 3] == '-'
    && AllDigits(r[..|r| - 6]) && AllDigits(r[|r| - 5..|r| - 3]) && AllDigits(r[|r| - 2..])
  }

  /** `x-yy-zz`. */
  function Dashed(x: string, y: string, z: string): (r: string)
    requires AllDigits(x) && AllDigits(y) && AllDigits(z) && |y| == 2 && |z| == 2
    ensures |r| == |x| + 6 && DashedDigits(r)
  {
    var r := x + "-" + y + "-" + z;
    assert r[..|r| - 6] == x && r[|r| - 5..|r| - 3] == y && r[|r| - 2..] == z;
    r
  }

  datatype IsoDate = IsoDate(year: nat, month: nat, day: nat)

  /** Reads `yyyy-MM-dd` back: three '-'-separated groups of digits. */
  function ParseIsoDate(s: string): Option<IsoDate> {
    var parts := Split(s, '-');
    if |parts| == 3 && AllDigits(parts[0]) && AllDigits(parts[1]) && AllDigits(parts[2]) then
      Some(IsoDate(DigitsValue(parts[0]), DigitsValue(parts[1]), DigitsValue(parts[2])))
    else None
  }

  lemma DigitsHaveNoDash(s: string)
    requires AllDigits(s)
    ensures '-' !in s
  {
  }

  /** Three pieces without '-' joined by '-' split back into those pieces. */
  lemma SplitThree(a: string, b: string, c: string)
    requires '-' !in a && '-' !in b && '-' !in c
    ensures Split(a + "-" + b + "-" + c, '-') == [a, b, c]
  {
    assert a + "-" + b + "-" + c == a + ['-'] + (b + ['-'] + c);
    SplitAppend(a, b + ['-'] + c, '-');
    SplitAppend(b, c, '-');
    SplitNoSeparator(a, '-');
    SplitNoSeparator(b, '-');
    SplitNoSeparator(c, '-');
  }

  /** Three digit groups joined by '-' read back as their values. */
  lemma ParseJoined(a: string, b: string, c: string)
    requires AllDigits(a) && AllDigits(b) && AllDigits(c)
    ensures ParseIsoDate(a + "-" + b + "-" + c) == Some(IsoDate(DigitsValue(a), DigitsValue(b), DigitsValue(c)))
  {
    DigitsHaveNoDash(a);
    DigitsHaveNoDash(b);
    DigitsHaveNoDash(c);
    SplitThree(a, b, c);
  }

  /** The text of a date reads back as its era year, its month counted from
      1, and its day; for years from 1 on that is the year itself. */
  lemma FormatIsoDateRoundTrip(y: int, m: int, d: int)
    requires 0 <= m < 12 && 1 <= d <= 31
    ensures ParseIsoDate(FormatIsoDate(y, m, d)) == Some(IsoDate(EraYear(y), m + 1, d))
  {
    var digits := NatToString(EraYear(y));
    var a := PadZeros(digits, 4);
    NatToStringRoundTrip(EraYear(y));
    LeadingZeros(|a| - |digits|, digits);
    assert FormatIsoDate(y, m, d) == a + "-" + TwoDigits(m + 1) + "-" + TwoDigits(d);
    ParseJoined(a, TwoDigits(m + 1), TwoDigits(d));
  }

  /** Different days of one month give different texts. */
  lemma FormatIsoDateInjective(y: int, m: int, d1: int, d2: int)
    requires 0 <= m < 12 && 1 <= d1 <= 31 && 1 <= d2 <= 31
    requires FormatIsoDate(y, m, d1) == FormatIsoDate(y, m, d2)
    ensures d1 == d2
  {
    FormatIsoDateRoundTrip(y, m, d1);
    FormatIsoDateRoundTrip(y, m, d2);
  }
}

=== FILE: error_boundary.dfy ===
/** The error boundary (src/components/common/ErrorBoundary.tsx): a component
    that, once a child throws while rendering, shows a fallback instead of its
    children until it is reset by its "Try again" button or by a change of
    its `resetKeys`. */
module ErrorBoundary {
  import opened Wrappers

  const DefaultMessage: string := "An unexpected error occurred"

  datatype Error = Error(message: string)

  datatype ErrorInfo = ErrorInfo(componentStack: string)

  /** What `render` returns. */
  datatype Shown =
    | Children
    | Fallback(node: string)
    /** The built-in alert: the message, and the component stack in development. */
    | DefaultUi(message: string, componentStack: Option<string>)

  /** `this.props.fallback || ...`: a missing or empty fallback is falsy. */
  predicate HasFallback(fallback: Option<string>) {
    fallback.Some? && fallback.value != ""
  }

  /** `this.state.error?.message || 'An unexpected error occurred'`. */
  function AlertMessage(error: Option<Error>): (m: string)
    ensures m != ""
    ensures error.Some? && error.value.message != "" ==> m == error.value.message
    ensures error.None? || error.value.message == "" ==> m == DefaultMessage
  {
    if error.Some? && error.value.message != "" then error.value.message else DefaultMessage
  }

  class Boundary {
    var hasError: bool
    var error: Option<Error>
    var errorInfo: Option<ErrorInfo>
    /** The `onError` calls made so far, oldest first. */
    var reported: seq<(Error, ErrorInfo)>

    /** An error or its info is only held while the boundary is in its error
        state, and the error is held for the whole of it. */
    ghost predicate Valid()
      reads this
    {
      (hasError <==> error.Some?) && (errorInfo.Some? ==> hasError)
    }

    /** No error yet. */
    constructor ()
      ensures Valid()
      ensures !hasError && error == None && errorInfo == None && reported == []
    {
      hasError := false;
      error := None;
      errorInfo := None;
      reported := [];
    }

    /** A child threw `e`: React merges `getDerivedStateFromError(e)` into the
        state, then calls `componentDidCatch(e, info)`, which records the info
        and calls `onError` once when it is given. */
    method Catch(e: Error, info: ErrorInfo, hasOnError: bool)
      requires Valid()
      modifies this
      ensures Valid()
      ensures hasError && error == Some(e) && errorInfo == Some(info)
      ensures reported == old(reported) + (if hasOnError then [(e, info)] else [])
    {
      hasError := true;
      error := Some(e);
      errorInfo := Some(info);
      if hasOnError {
        reported := reported + [(e, info)];
      }
    }

    /** `reset`: clears the error state and everything it held. */
    method Reset()
      modifies this
      ensures Valid()
      ensures !hasError && error == None && errorInfo == None
      ensures reported == old(reported)
    {
      hasError := false;
      error := None;
      errorInfo := None;
    }

    /** `componentDidUpdate`: resets when `resetKeys` is given and is not the
        very array the previous props held. `null` stands for an absent
        `resetKeys`; arrays are compared by reference, as `!==` does. */
    method DidUpdate(prevKeys: array?<string>, keys: array?<string>)
      requires Valid()
      modifies this
      ensures Valid()
      ensures keys != null && keys != prevKeys ==> !hasError && error == None && errorInfo == None
      ensures !(keys != null && keys != prevKeys) ==>
        hasError == old(hasError) && error == old(error) && errorInfo == old(errorInfo)
      ensures reported == old(reported)
    {
      if keys != null && prevKeys != keys {
        Reset();
      }
    }

    /** `render`, with `dev` for `import.meta.env.DEV`. */
    function Render(fallback: Option<string>, dev: bool): (s: Shown)
      reads this
      ensures !hasError <==> s.Children?
      ensures hasError && HasFallback(fallback) ==> s == Fallback(fallback.value)
      ensures hasError && !HasFallback(fallback) ==>
        s.DefaultUi? && s.message == AlertMessage(error)
        && (s.componentStack.Some? <==> dev && errorInfo.Some?)
    {
      if !hasError then Children
      else if HasFallback(fallback) then Fallback(fallback.value)
      else DefaultUi(AlertMessage(error),
                     if dev && errorInfo.Some? then Some(errorInfo.value.componentStack) else None)
    }
  }

  /** A child throws, the alert shows its message and `onError` is called once;
      new `resetKeys` bring the children back. */
  method CatchThenNewKeys(e: Error, info: ErrorInfo, oldKeys: array<string>, newKeys: array<string>)
    returns (b: Boundary)
    requires e.message != "" && oldKeys != newKeys
    ensures b.Render(None, false) == Children
    ensures b.reported == [(e, info)]
  {
    b := new Boundary();
    b.Catch(e, info, true);
    assert b.Render(None, false) == DefaultUi(e.message, None);
    b.DidUpdate(oldKeys, oldKeys);
    assert b.Render(None, false) == DefaultUi(e.message, None);
    b.DidUpdate(oldKeys, newKeys);
  }
}

=== FILE: http_policy.dfy ===
/** The error policy of the HTTP client (src/lib/axios.ts): what the response
    interceptor does with a failed request. An unauthorised answer signs the
    user out, a missing answer or a server error is retried with exponential
    backoff at most three times, and anything else becomes a normalised
    `ApiError`. The decision is a function of the failure, the request's retry
    counter and the token-refresh flag; the interceptor that carries it out
    changes the counter on the request and the stored token and location. */
module HttpPolicy {
  import opened Wrappers
  import Records

  const MaxRetries: nat := 3
  /** Milliseconds before the first retry. */
  const RetryDelay: nat := 1000
  const LoginRoute: string := "/login"
  const DefaultMessage: string := "An unexpected error occurred"
  const DefaultCode: string := "UNKNOWN_ERROR"
  const DefaultStatus: int := 500
  const RefreshNotImplemented: string :=
    "Token refresh not implemented. Please implement authentication refresh logic."

  /** The body of a failed response, as far as the policy reads it; an absent
      or null field is `None`. */
  datatype ErrorBody = ErrorBody(message: Option<string>, code: Option<string>, details: Records.Value)

  datatype HttpResponse = HttpResponse(status: int, data: Option<ErrorBody>)

  datatype ApiError = ApiError(message: string, code: string, status: int, details: Records.Value)

  /** What the interceptor's promise is rejected with. */
  datatype Thrown =
    | TypeError                    // reading `_retry` of a missing request config
    | OriginalError                // the axios error itself
    | RefreshError(message: string)
    | Normalised(error: ApiError)

  datatype Outcome =
    /** The token is removed, the location set to the login route, then `thrown` is thrown. */
    | SignOut(thrown: Thrown)
    /** The counter on the request is now `retry`; it is sent again after `delayMs`. */
    | RetryAfter(delayMs: nat, retry: nat)
    | Reject(thrown: Thrown)

  /** `shouldRetry`: no response at all, or a 5xx status. */
  predicate ShouldRetry(response: Option<HttpResponse>) {
    response.None? || 500 <= response.value.status <= 599
  }

  function Pow2(n: nat): (p: nat)
    ensures p >= 1
  {
    if n == 0 then 1 else 2 * Pow2(n - 1)
  }

  /** `retryRequest` for a request whose counter is `retry` (0 when unset):
      the counter is raised first, and the request is given up once the raised
      counter exceeds the maximum; the n-th retry waits 1000 * 2^(n-1) ms. */
  function RetryStep(retry: nat): (o: Outcome)
    ensures o.RetryAfter? <==> retry < MaxRetries
    ensures o.RetryAfter? ==> o.retry == retry + 1 && o.delayMs == RetryDelay * Pow2(o.retry - 1)
    ensures !o.RetryAfter? ==> o == Reject(OriginalError)
  {
    var n := retry + 1;
    if n > MaxRetries then Reject(OriginalError) else RetryAfter(RetryDelay * Pow2(n - 1), n)
  }

  /** The `ApiError` built from a failure: the server's message, code and
      status where it sent them, the fixed defaults otherwise. */
  function Normalise(response: Option<HttpResponse>): (e: ApiError)
    ensures response.Some? ==> e.status == response.value.status
    ensures response.None? ==> e == ApiError(DefaultMessage, DefaultCode, DefaultStatus, Records.Undefined)
    ensures response.Some? && response.value.data.Some? && response.value.data.value.message.Some? ==>
      e.message == response.value.data.value.message.value
    ensures (response.Some? ==> response.value.data.None? || response.value.data.value.message.None?) ==>
      e.message == DefaultMessage
    ensures response.Some? && response.value.data.Some? && response.value.data.value.code.Some? ==>
      e.code == response.value.data.value.code.value
    ensures (response.Some? ==> response.value.data.None? || response.value.data.value.code.None?) ==>
      e.code == DefaultCode
  {
    var data := if response.Some? then response.value.data else None;
    ApiError(
      if data.Some? && data.value.message.Some? then data.value.message.value else DefaultMessage,
      if data.Some? && data.value.code.Some? then data.value.code.value else DefaultCode,
      if response.Some? then response.value.status else DefaultStatus,
      if data.Some? then data.value.details else Records.Undefined)
  }

  /** The response-error interceptor's decision. `retry` is the request's
      counter (`None` when the failure carries no request config). */
  function Decide(response: Option<HttpResponse>, retry: Option<nat>, refreshEnabled: bool): (o: Outcome)
    ensures o.SignOut? <==> response.Some? && response.value.status == 401 && retry == Some(0)
    ensures o.RetryAfter? <==> ShouldRetry(response) && retry.Some? && retry.value < MaxRetries
    ensures o.RetryAfter? ==> o.retry == retry.value + 1
    ensures o == Reject(TypeError) <==> response.Some? && response.value.status == 401 && retry.None?
    ensures o.Reject? && o.thrown.Normalised? <==>
      !ShouldRetry(response) && !(response.value.status == 401 && (retry.None? || retry.value == 0))
  {
    if response.Some? && response.value.status == 401 && (retry.None? || retry.value == 0) then
      if retry.None? then Reject(TypeError)
      else SignOut(if refreshEnabled then RefreshError(RefreshNotImplemented) else OriginalError)
    else if ShouldRetry(response) then
      if retry.None? then Reject(OriginalError) else RetryStep(retry.value)
    else Reject(Normalised(Normalise(response)))
  }

  /** A 401 on a first attempt always signs out, refresh enabled or not,
      because the refresh always fails; what is thrown depends on the flag. */
  lemma UnauthorisedSignsOut(data: Option<ErrorBody>, refreshEnabled: bool)
    ensures Decide(Some(HttpResponse(401, data)), Some(0), refreshEnabled)
      == SignOut(if refreshEnabled then RefreshError(RefreshNotImplemented) else OriginalError)
  {
  }

  /** A 401 on a request already retried is neither re-authenticated nor
      retried: it is rejected as an `ApiError` with status 401. */
  lemma UnauthorisedAfterRetryIsNormalised(data: Option<ErrorBody>, retry: nat, refreshEnabled: bool)
    requires retry > 0
    ensures var o := Decide(Some(HttpResponse(401, data)), Some(retry), refreshEnabled);
            o.Reject? && o.thrown.Normalised? && o.thrown.error.status == 401
  {
  }

  /** A failure without a request config that would be retried is rethrown as is. */
  lemma RetryWithoutConfigRethrows(response: Option<HttpResponse>, refreshEnabled: bool)
    requires ShouldRetry(response)
    ensures Decide(response, None, refreshEnabled) == Reject(OriginalError)
  {
  }

  /** The default status 500 is never used: a failure that reaches the
      normalisation had a response, since one without would be retried. */
  lemma NormalisedKeepsStatus(response: Option<HttpResponse>, retry: Option<nat>, refreshEnabled: bool)
    requires Decide(response, retry, refreshEnabled).Reject?
    requires Decide(response, retry, refreshEnabled).thrown.Normalised?
    ensures response.Some?
    ensures Decide(response, retry, refreshEnabled).thrown.error.status == response.value.status
    ensures !(500 <= response.value.status <= 599)
  {
  }

  /** The delays waited and the final outcome when the same request fails
      again and again. */
  datatype Run = Run(delays: seq<nat>, last: Outcome)

  /** The interceptor applied to successive failures of one request: each
      retry re-sends it with the raised counter; the run ends at the first
      outcome that is not a retry, or when the failures run out. */
  function Replay(failures: seq<Option<HttpResponse>>, retry: nat, refreshEnabled: bool): (r: Run)
    requires |failures| >= 1
    ensures retry <= MaxRetries ==> |r.delays| <= MaxRetries - retry
    ensures retry > MaxRetries ==> r.delays == []
    ensures forall i :: 0 <= i < |r.delays| ==> r.delays[i] == RetryDelay * Pow2(retry + i)
    decreases |failures|
  {
    var o := Decide(failures[0], Some(retry), refreshEnabled);
    if o.RetryAfter? then
      if |failures| == 1 then Run([o.delayMs], o)
      else
        var rest := Replay(failures[1..], o.retry, refreshEnabled);
        Run([o.delayMs] + rest.delays, rest.last)
    else Run([], o)
  }

  /** A request that fails four times with no response or a server error is
      retried after 1, 2 and 4 seconds and then given up. */
  lemma BackoffSchedule(failures: seq<Option<HttpResponse>>, refreshEnabled: bool)
    requires |failures| == 4
    requires forall i :: 0 <= i < 4 ==> ShouldRetry(failures[i])
    ensures Replay(failures, 0, refreshEnabled) == Run([1000, 2000, 4000], Reject(OriginalError))
  {
    var f1 := failures[1..];
    var f2 := f1[1..];
    var f3 := f2[1..];
    assert ShouldRetry(f3[0]) && |f3| == 1;
    assert Replay(f3, 3, refreshEnabled) == Run([], Reject(OriginalError));
    assert Replay(f2, 2, refreshEnabled) == Run([4000], Reject(OriginalError));
    assert Replay(f1, 1, refreshEnabled) == Run([2000, 4000], Reject(OriginalError));
  }

  /** The request's retry counter, which `retryRequest` raises in place. */
  class RequestConfig {
    var retry: nat

    constructor ()
      ensures retry == 0
    {
      retry := 0;
    }
  }

  /** The browser state the interceptor touches: the stored token and the location. */
  class Session {
    var token: Option<string>
    var href: string

    constructor (token: Option<string>, href: string)
      ensures this.token == token && this.href == href
    {
      this.token := token;
      this.href := href;
    }
  }

  /** `retryRequest` on a present config: raises the counter in place, even
      when the request is then given up. */
  method RetryRequest(config: RequestConfig) returns (o: Outcome)
    modifies config
    ensures o == RetryStep(old(config.retry))
    ensures config.retry == old(config.retry) + 1
  {
    config.retry := config.retry + 1;
    if config.retry > MaxRetries {
      return Reject(OriginalError);
    }
    o := RetryAfter(RetryDelay * Pow2(config.retry - 1), config.retry);
  }

  /** The response-error interceptor: carries out `Decide` on the session and
      on the request's counter. */
  method OnResponseError(response: Option<HttpResponse>, config: RequestConfig?, session: Session,
                         refreshEnabled: bool) returns (o: Outcome)
    modifies session, config
    ensures o == Decide(response, if config == null then None else Some(old(config.retry)), refreshEnabled)
    ensures o.SignOut? ==> session.token == None && session.href == LoginRoute
    ensures !o.SignOut? ==> session.token == old(session.token) && session.href == old(session.href)
    ensures config != null && ShouldRetry(response) && !o.SignOut? ==> config.retry == old(config.retry) + 1
    ensures config != null && !(ShouldRetry(response) && !o.SignOut?) ==> config.retry == old(config.retry)
  {
    if response.Some? && response.value.status == 401 {
      if config == null {
        return Reject(TypeError);
      }
      if config.retry == 0 {
        session.token := None;
        session.href := LoginRoute;
        if refreshEnabled {
          return SignOut(RefreshError(RefreshNotImplemented));
        }
        return SignOut(OriginalError);
      }
    }
    if ShouldRetry(response) {
      if config == null {
        return Reject(OriginalError);
      }
      o := RetryRequest(config);
      return;
    }
    o := Reject(Normalised(Normalise(response)));
  }
}

=== FILE: intake_wizard.dfy ===
/** The step navigation of the add-client wizard
    (src/components/clients/AddClientModal.tsx): three steps, Next gated by
    whether the form's error tree holds an error for one of the current
    step's fields, and eight collapsible panels. The error tree is the nested
    object react-hook-form keeps, built from the intake validator's issues.
    Step and panel keys are the decimal strings of small integers in the
    source; here they are the integers. */
module IntakeWizard {
  import opened Wrappers
  import opened Text
  import ClientForm

  /** A value of the error tree: `undefined`, or an object with named members.
      A field error is an object; its message and type are not modelled. */
  datatype ErrorNode = Undefined | Obj(fields: map<string, ErrorNode>)

  predicate IsPrefix(q: seq<string>, p: seq<string>) {
    |q| <= |p| && p[..|q|] == q
  }

  /** The walk `hasSectionErrors` makes along a dotted path: each step needs
      an object that has the key; the end must not be `undefined`. */
  predicate Resolves(t: ErrorNode, path: seq<string>)
    decreases |path|
  {
    if path == [] then t.Obj?
    else t.Obj? && path[0] in t.fields && Resolves(t.fields[path[0]], path[1..])
  }

  /** Records an error at `path`, creating objects along the way and keeping
      whatever is already there. */
  function Insert(t: ErrorNode, path: seq<string>): (r: ErrorNode)
    ensures r.Obj?
    decreases |path|
  {
    if path == [] then (if t.Obj? then t else Obj(map[]))
    else
      var fields := if t.Obj? then t.fields else map[];
      var child := if path[0] in fields then fields[path[0]] else Undefined;
      Obj(fields[path[0] := Insert(child, path[1..])])
  }

  /** The error tree for a list of issues, recorded in order. */
  function ErrorsOf(issues: seq<ClientForm.Issue>): (r: ErrorNode)
    ensures r.Obj?
  {
    if issues == [] then Obj(map[])
    else Insert(ErrorsOf(issues[..|issues| - 1]), issues[|issues| - 1].path)
  }

  /** After recording `p`, a path resolves exactly when it did before or it
      leads into `p`. */
  lemma {:induction false} InsertResolves(t: ErrorNode, p: seq<string>, q: seq<string>)
    ensures Resolves(Insert(t, p), q) <==> Resolves(t, q) || IsPrefix(q, p)
    decreases |p|
  {
    if p != [] && q != [] && q[0] == p[0] {
      var fields := if t.Obj? then t.fields else map[];
      var child := if p[0] in fields then fields[p[0]] else Undefined;
      InsertResolves(child, p[1..], q[1..]);
      assert IsPrefix(q, p) <==> IsPrefix(q[1..], p[1..]);
    }
  }

  /** The tree built from a list of issues resolves a non-empty path exactly
      when some issue lies at or below it. */
  lemma {:induction false} ErrorsOfResolves(issues: seq<ClientForm.Issue>, q: seq<string>)
    requires q != []
    ensures Resolves(ErrorsOf(issues), q) <==> exists i :: 0 <= i < |issues| && IsPrefix(q, issues[i].path)
  {
    if issues != [] {
      var init := issues[..|issues| - 1];
      ErrorsOfResolves(init, q);
      InsertResolves(ErrorsOf(init), issues[|issues| - 1].path, q);
      if exists i :: 0 <= i < |issues| && IsPrefix(q, issues[i].path) {
        var i :| 0 <= i < |issues| && IsPrefix(q, issues[i].path);
        if i < |issues| - 1 {
          assert init[i] == issues[i];
        }
      }
    }
  }

  /** `getSectionFields`: the dotted field names a step checks before Next. */
  function SectionFields(section: int): (fields: seq<string>)
    ensures !(0 <= section <= 5) ==> fields == []
    ensures 0 <= section <= 5 ==> |fields| >= 1
    ensures section == 1 ==> fields == ["height.value", "weight.value", "bmi"]
    ensures forall i :: 0 <= i < |fields| ==> fields[i] != ""
  {
    match section
    case 0 =>
      ["name", "email", "phone", "dateOfBirth", "gender", "occupation", "appointmentReason",
       "expectations", "clinicalObjective", "intestinalFunction", "sleepQuality", "smokingStatus",
       "alcoholConsumption", "maritalStatus", "physicalActivity", "wakeUpTime", "bedTime",
       "foodPreferences", "foodAllergies", "foodIntolerances", "waterIntake"]
    case 1 => ["height.value", "weight.value", "bmi"]
    case 2 => ["activityLevel", "occupationType"]
    case 3 => ["dietType"]
    case 4 => ["primaryGoal"]
    case 5 => ["hydration.dailyWaterIntake", "sleep.averageDuration"]
    case _ => []
  }

  /** A dotted field name whose path resolves in the tree. */
  predicate FieldResolves(t: ErrorNode, field: string) {
    Resolves(t, Split(field, '.'))
  }

  /** `fields.some(...)`, as a statement. */
  predicate AnyFieldResolves(t: ErrorNode, fields: seq<string>) {
    exists i :: 0 <= i < |fields| && FieldResolves(t, fields[i])
  }

  /** `hasSectionErrors`, as a statement: some field of the step names a path
      that resolves in the tree. */
  predicate SectionHasErrors(t: ErrorNode, section: int) {
    AnyFieldResolves(t, SectionFields(section))
  }

  /** The loop of `hasSectionErrors` for one field's path. */
  method FieldHasError(t: ErrorNode, path: seq<string>) returns (b: bool)
    ensures b == Resolves(t, path)
  {
    var current := t;
    for k := 0 to |path|
      invariant Resolves(t, path) == Resolves(current, path[k..])
    {
      assert path[k..][1..] == path[k + 1..];
      if current.Obj? && path[k] in current.fields {
        current := current.fields[path[k]];
      } else {
        return false;
      }
    }
    b := current.Obj?;
  }

  /** `fields.some(...)`: the first field whose path resolves stops the search. */
  method AnyFieldHasError(t: ErrorNode, fields: seq<string>) returns (b: bool)
    ensures b == AnyFieldResolves(t, fields)
  {
    for i := 0 to |fields|
      invariant forall j :: 0 <= j < i ==> !FieldResolves(t, fields[j])
    {
      var found := FieldHasError(t, Split(fields[i], '.'));
      if found {
        return true;
      }
    }
    b := false;
  }

  /** `hasSectionErrors`. */
  method HasSectionErrors(t: ErrorNode, section: int) returns (b: bool)
    ensures b == SectionHasErrors(t, section)
  {
    b := AnyFieldHasError(t, SectionFields(section));
  }

  /** A form that meets the schema never holds a step back. */
  lemma ValidFormNeverBlocks(f: ClientForm.IntakeForm, c: ClientForm.Checks, section: int)
    requires ClientForm.MeetsSchema(f, c)
    ensures !SectionHasErrors(ErrorsOf(ClientForm.Issues(f, c)), section)
  {
    ClientForm.IssuesEmptyIffMeetsSchema(f, c);
    NoIssuesNoErrors(ClientForm.Issues(f, c), section);
  }

  lemma NoIssuesNoErrors(issues: seq<ClientForm.Issue>, section: int)
    requires issues == []
    ensures !SectionHasErrors(ErrorsOf(issues), section)
  {
    var fields := SectionFields(section);
    forall i | 0 <= i < |fields|
      ensures !FieldResolves(ErrorsOf(issues), fields[i])
    {
      assert Split(fields[i], '.') != [];
    }
  }

  /** An issue reported right at a field of a step blocks that step. */
  lemma ReportedFieldBlocks(issues: seq<ClientForm.Issue>, section: int, k: int, x: ClientForm.Issue)
    requires 0 <= k < |SectionFields(section)| && '.' !in SectionFields(section)[k]
    requires x in issues && x.path == [SectionFields(section)[k]]
    ensures SectionHasErrors(ErrorsOf(issues), section)
  {
    var field := SectionFields(section)[k];
    var i :| 0 <= i < |issues| && issues[i] == x;
    assert IsPrefix([field], issues[i].path);
    ErrorsOfResolves(issues, [field]);
    SplitNoSeparator(field, '.');
    assert FieldResolves(ErrorsOf(issues), SectionFields(section)[k]);
  }

  lemma FirstFieldsOfSteps()
    ensures |SectionFields(0)| > 0 && SectionFields(0)[0] == "name" && '.' !in "name"
    ensures |SectionFields(1)| > 2 && SectionFields(1)[2] == "bmi" && '.' !in "bmi"
    ensures |SectionFields(0)| > 20 && SectionFields(0)[20] == "waterIntake" && '.' !in "waterIntake"
  {
  }

  /** Once the form has been validated with an empty name, Next from the
      first step is refused. */
  lemma EmptyNameBlocksFirstStep(f: ClientForm.IntakeForm, c: ClientForm.Checks)
    requires f.name == ""
    ensures SectionHasErrors(ErrorsOf(ClientForm.Issues(f, c)), 0)
  {
    FirstFieldsOfSteps();
    ClientForm.EmptyNameIsReported(f, c);
    ReportedFieldBlocks(ClientForm.Issues(f, c), 0, 0, ClientForm.Issue(["name"], Some(ClientForm.NameRequired)));
  }

  /** Once the form has been validated with the wizard's default BMI of 0,
      Next from the second step is refused until the BMI is changed. */
  lemma DefaultBmiBlocksSecondStep(f: ClientForm.IntakeForm, c: ClientForm.Checks)
    requires f.bmi == Some(0.0)
    ensures SectionHasErrors(ErrorsOf(ClientForm.Issues(f, c)), 1)
  {
    FirstFieldsOfSteps();
    ClientForm.LowBmiIsReported(f, c);
    ReportedFieldBlocks(ClientForm.Issues(f, c), 1, 2, ClientForm.Issue(["bmi"], Some(ClientForm.BmiTooLow)));
  }

  /** Once a form that never set `waterIntake` has been validated, Next from
      the first step is refused, whatever else the form holds. The dialog has
      no input for `waterIntake`, so every form it validates is such a form. */
  lemma MissingWaterIntakeBlocksFirstStep(f: ClientForm.IntakeForm, c: ClientForm.Checks)
    requires f.waterIntake.None?
    ensures SectionHasErrors(ErrorsOf(ClientForm.Issues(f, c)), 0)
  {
    FirstFieldsOfSteps();
    ClientForm.MissingWaterIntakeIsReported(f, c);
    ReportedFieldBlocks(ClientForm.Issues(f, c), 0, 20, ClientForm.Issue(["waterIntake"], None));
  }

  /** A dotted field name with one dot names a path of two pieces. */
  lemma DottedPath(a: string, b: string)
    requires '.' !in a && '.' !in b
    ensures Split(a + "." + b, '.') == [a, b]
  {
    assert a + "." + b == a + ['.'] + b;
    SplitAppend(a, b, '.');
    SplitNoSeparator(a, '.');
    SplitNoSeparator(b, '.');
  }

  /** Issues reported at a measure as a whole, as zod reports a measure whose
      input replaced the `{value, unit}` object by a string, never hold the
      second step back: the walk of "height.value" stops at the field error,
      which has no `value` member. Any issues whose paths are single keys
      other than "bmi" behave so. */
  lemma WholeMeasureIssuesDoNotBlock(issues: seq<ClientForm.Issue>)
    requires forall i :: 0 <= i < |issues| ==> |issues[i].path| == 1 && issues[i].path[0] != "bmi"
    ensures !SectionHasErrors(ErrorsOf(issues), 1)
  {
    var height, weight, value, bmi := "height", "weight", "value", "bmi";
    assert "height.value" == height + "." + value;
    assert "weight.value" == weight + "." + value;
    assert SectionFields(1) == [height + "." + value, weight + "." + value, bmi];
    MeasureFieldsClear(issues, height, weight, value, bmi);
  }

  /** The fields of the second step, spelled through their pieces, do not
      resolve in a tree of single-key issues other than `bmi`. */
  lemma MeasureFieldsClear(issues: seq<ClientForm.Issue>, height: string, weight: string, value: string, bmi: string)
    requires '.' !in height && '.' !in weight && '.' !in value && '.' !in bmi
    requires forall i :: 0 <= i < |issues| ==> |issues[i].path| == 1 && issues[i].path[0] != bmi
    ensures !AnyFieldResolves(ErrorsOf(issues), [height + "." + value, weight + "." + value, bmi])
  {
    DottedPath(height, value);
    DottedPath(weight, value);
    SplitNoSeparator(bmi, '.');
    NoIssueBelow(issues, bmi, [height, value]);
    NoIssueBelow(issues, bmi, [weight, value]);
    NoIssueBelow(issues, bmi, [bmi]);
    NoFieldResolves(ErrorsOf(issues), [height + "." + value, weight + "." + value, bmi],
      [[height, value], [weight, value], [bmi]]);
  }

  /** A path resolves in the tree of single-key issues only when it is one of
      those keys. */
  lemma NoIssueBelow(issues: seq<ClientForm.Issue>, key: string, q: seq<string>)
    requires forall i :: 0 <= i < |issues| ==> |issues[i].path| == 1 && issues[i].path[0] != key
    requires |q| == 2 || q == [key]
    ensures !Resolves(ErrorsOf(issues), q)
  {
    ErrorsOfResolves(issues, q);
  }

  /** No step field resolves when none of the paths they split into does. */
  lemma NoFieldResolves(t: ErrorNode, fields: seq<string>, paths: seq<seq<string>>)
    requires |paths| == |fields|
    requires forall k :: 0 <= k < |fields| ==> Split(fields[k], '.') == paths[k] && !Resolves(t, paths[k])
    ensures !AnyFieldResolves(t, fields)
  {
  }

  /** The number of steps: General Information, Health & Body Metrics, Health Goals. */
  const TotalSections: int := 3

  /** The number of collapsible panels. */
  const Panels: int := 8

  /** Panels 0 to 7, all expanded. */
  const AllExpanded: map<int, bool> :=
    map[0 := true, 1 := true, 2 := true, 3 := true, 4 := true, 5 := true, 6 := true, 7 := true]

  class Wizard {
    var currentSection: int
    var expanded: map<int, bool>

    /** Every panel has an entry from the start on. */
    ghost predicate Valid()
      reads this
    {
      forall k :: 0 <= k < Panels ==> k in expanded
    }

    /** Step 0, every panel expanded. */
    constructor ()
      ensures Valid()
      ensures currentSection == 0
      ensures forall k :: 0 <= k < Panels ==> IsExpanded(k)
      ensures expanded == AllExpanded
    {
      currentSection := 0;
      expanded := AllExpanded;
    }

    /** `isSectionExpanded`: an absent key reads as collapsed. */
    function IsExpanded(panel: int): (b: bool)
      reads this
      ensures b <==> panel in expanded && expanded[panel]
    {
      if panel in expanded then expanded[panel] else false
    }

    /** `setCurrentSection` followed by the effect on `currentSection`: when
        the step changes, the panel keyed by the new step is expanded. */
    method GoTo(section: int)
      requires Valid()
      modifies this
      ensures Valid()
      ensures currentSection == section
      ensures section != old(currentSection) ==> expanded == old(expanded)[section := true]
      ensures section == old(currentSection) ==> expanded == old(expanded)
    {
      if section != currentSection {
        currentSection := section;
        expanded := expanded[section := true];
      }
    }

    /** `handleNext`: one step on when the current step's fields hold no
        error, otherwise nothing. */
    method Next(errors: ErrorNode)
      requires Valid()
      modifies this
      ensures Valid()
      ensures !SectionHasErrors(errors, old(currentSection)) ==>
        currentSection == old(currentSection) + 1 && expanded == old(expanded)[currentSection := true]
      ensures SectionHasErrors(errors, old(currentSection)) ==>
        currentSection == old(currentSection) && expanded == old(expanded)
    {
      var blocked := HasSectionErrors(errors, currentSection);
      if !blocked {
        GoTo(currentSection + 1);
      }
    }

    /** `handlePrevious`: one step back, without validating. */
    method Previous()
      requires Valid()
      modifies this
      ensures Valid()
      ensures currentSection == old(currentSection) - 1
      ensures expanded == old(expanded)[currentSection := true]
    {
      GoTo(currentSection - 1);
    }

    /** `handleSectionClick`: straight to any step, without validating. */
    method SectionClick(index: int)
      requires Valid()
      modifies this
      ensures Valid()
      ensures currentSection == index
      ensures index != old(currentSection) ==> expanded == old(expanded)[index := true]
      ensures index == old(currentSection) ==> expanded == old(expanded)
    {
      GoTo(index);
    }

    /** `toggleSection`: flips one panel (an absent one becomes expanded) and
        leaves every other entry as it was. */
    method Toggle(panel: int)
      requires Valid()
      modifies this
      ensures Valid()
      ensures currentSection == old(currentSection)
      ensures expanded == old(expanded)[panel := !old(IsExpanded(panel))]
    {
      expanded := expanded[panel := !IsExpanded(panel)];
    }

    /** The footer shows Previous after the first step. */
    predicate ShowPrevious()
      reads this
    {
      currentSection > 0
    }

    /** The footer shows the submit button instead of Next on the last step. */
    predicate ShowSubmit()
      reads this
    {
      currentSection == TotalSections - 1
    }
  }

  /** Until the form is first submitted, react-hook-form's `errors` is the
      empty object, so Next is never refused: whatever the form holds, two
      presses of Next lead from the first step to the submit button, with
      Previous shown from the second step on. */
  method WalkToSubmit() returns (w: Wizard)
    ensures w.currentSection == TotalSections - 1
    ensures w.ShowSubmit() && w.ShowPrevious()
  {
    var errors := ErrorsOf([]);
    w := new Wizard();
    NoIssuesNoErrors([], 0);
    w.Next(errors);
    NoIssuesNoErrors([], 1);
    w.Next(errors);
  }
}

=== FILE: mock_api.dfy ===
/** The in-memory client table that stands in for the backend
    (src/mocks/api.ts): one module-level list of client records, read and
    changed in place by URL-addressed get, post, patch and delete. The
    simulated network delay is not modelled, and each reading of the clock
    that stamps `createdAt`/`updatedAt` is a parameter. */
module MockApi {
  import opened Wrappers
  import opened Records
  import opened Text
  import Sequences

  /** What a successful call returns as `data`: the whole list or one record. */
  datatype Payload = Many(clients: seq<Record>) | One(client: Record)

  datatype ApiResponse = ApiResponse(data: Payload, message: string)

  const CollectionUrl: string := "/clients"
  const ItemPrefix: string := "/clients/"
  const ClientNotFound: string := "Client not found"
  const EndpointNotFound: string := "Endpoint not found"

  /** `url.split('/')[2]` for a URL under `/clients/`: the text after the
      prefix up to the next `/` or the end; later segments are ignored. */
  function UrlId(url: string): (id: string)
    requires StartsWith(url, ItemPrefix)
    ensures '/' !in id
    ensures StartsWith(url[|ItemPrefix|..], id)
    ensures |id| == |url| - |ItemPrefix| || url[|ItemPrefix| + |id|] == '/'
  {
    var tail := url[|ItemPrefix|..];
    assert url == ItemPrefix + tail;
    ThirdPieceOfItemUrl(tail);
    SplitFirstPiece(tail, '/');
    Split(url, '/')[2]
  }

  /** `/clients/<tail>` splits into "", "clients" and the pieces of the tail. */
  lemma ThirdPieceOfItemUrl(tail: string)
    ensures |Split(ItemPrefix + tail, '/')| >= 3
    ensures Split(ItemPrefix + tail, '/')[2] == Split(tail, '/')[0]
  {
    var clients := "clients";
    assert '/' !in clients;
    assert ItemPrefix + tail == [] + ['/'] + clients + ['/'] + tail;
    ThirdPiece([], clients, tail, '/');
  }

  /** The URL of one client, and the id read back from it; anything after a
      further `/` does not change the id. */
  lemma UrlIdRoundTrip(id: string, rest: string)
    requires '/' !in id
    ensures UrlId(ItemPrefix + id) == id
    ensures UrlId(ItemPrefix + id + "/" + rest) == id
  {
    var u := ItemPrefix + id;
    assert u[|ItemPrefix|..] == id;
    FirstPieceUnique(id, '/', UrlId(u), id);
    var v := ItemPrefix + id + "/" + rest;
    assert v[|ItemPrefix|..] == id + "/" + rest;
    FirstPieceUnique(id + "/" + rest, '/', UrlId(v), id);
  }

  /** The record `post` stores: the posted fields, then a fresh id, both
      timestamps, and empty measurements and goals, which win over any posted
      field of the same name. */
  function NewClient(data: Record, count: nat, created: string, updated: string): (c: Record)
    ensures IdOf(c) == Str(NatToString(count + 1))
    ensures Get(c, "createdAt") == Str(created) && Get(c, "updatedAt") == Str(updated)
    ensures Get(c, "measurements") == List([]) && Get(c, "goals") == List([])
    ensures c.Keys == data.Keys + {"id", "createdAt", "updatedAt", "measurements", "goals"}
    ensures forall k | k in data && k !in {"id", "createdAt", "updatedAt", "measurements", "goals"} :: c[k] == data[k]
  {
    Spread(data, map["id" := Str(NatToString(count + 1)), "createdAt" := Str(created), "updatedAt" := Str(updated),
                     "measurements" := List([]), "goals" := List([])])
  }

  /** The record `patch` writes back: the stored fields, overridden by the
      patch data, with a new `updatedAt`. */
  function Merged(current: Record, data: Record, now: string): (c: Record)
    ensures c.Keys == current.Keys + data.Keys + {"updatedAt"}
    ensures Get(c, "updatedAt") == Str(now)
    ensures forall k | k in data && k != "updatedAt" :: c[k] == data[k]
    ensures forall k | k in current && k !in data && k != "updatedAt" :: c[k] == current[k]
  {
    Spread(Spread(current, data), map["updatedAt" := Str(now)])
  }

  /** Records carrying the ids "1", "2", ... in order, as a table that has
      only ever been appended to does. */
  predicate NumberedInOrder(t: seq<Record>) {
    forall j :: 0 <= j < |t| ==> IdOf(t[j]) == Str(NatToString(j + 1))
  }

  /** In such a table no two records share an id, and `post` keeps it so. */
  lemma NumberedTableStaysDistinct(t: seq<Record>, data: Record, created: string, updated: string)
    requires NumberedInOrder(t)
    ensures forall i, j :: 0 <= i < j < |t| ==> IdOf(t[i]) != IdOf(t[j])
    ensures NumberedInOrder(t + [NewClient(data, |t|, created, updated)])
  {
    forall i, j | 0 <= i < j < |t|
      ensures IdOf(t[i]) != IdOf(t[j])
    {
      if IdOf(t[i]) == IdOf(t[j]) {
        NatToStringInjective(i + 1, j + 1);
      }
    }
  }

  /** Once a record has been deleted, `post` can hand out an id the table
      already holds; a later lookup by that id then finds the older record. */
  lemma PostCanReuseAnId(t: seq<Record>, data: Record, created: string, updated: string)
    requires exists j :: 0 <= j < |t| && IdOf(t[j]) == Str(NatToString(|t| + 1))
    ensures FirstIndexWithId(t + [NewClient(data, |t|, created, updated)], Str(NatToString(|t| + 1))) < |t|
  {
    var id := Str(NatToString(|t| + 1));
    var j :| 0 <= j < |t| && IdOf(t[j]) == id;
    FoundBeforeAppended(t, NewClient(data, |t|, created, updated), id, j);
  }

  lemma FoundBeforeAppended(t: seq<Record>, x: Record, id: Value, j: int)
    requires 0 <= j < |t| && IdOf(t[j]) == id
    ensures FirstIndexWithId(t + [x], id) < |t|
  {
    assert (t + [x])[j] == t[j];
  }

  /** The situation above arises: deleting "1" from the table "1", "2" and then
      posting allocates "2" a second time. */
  lemma DeleteThenPostDuplicates(a: Record, b: Record, data: Record, created: string, updated: string)
    requires IdOf(a) == Str("1") && IdOf(b) == Str("2")
    ensures var t := Sequences.RemoveAt([a, b], 0);
            t == [b] && IdOf(NewClient(data, |t|, created, updated)) == IdOf(b)
  {
    assert NatToString(2) == "2";
  }

  class ClientTable {
    var clients: seq<Record>

    /** The table starts from the seeded records. */
    constructor (initial: seq<Record>)
      ensures clients == initial
    {
      clients := initial;
    }

    /** `get`: the whole table for `/clients`, the first record with the id
        for `/clients/<id>`, and an error otherwise; the table is not changed. */
    method Get(url: string) returns (r: Result<ApiResponse, string>)
      ensures url == CollectionUrl ==> r == Success(ApiResponse(Many(clients), "Clients retrieved successfully"))
      ensures url != CollectionUrl && StartsWith(url, ItemPrefix) ==>
        r == match FindById(clients, Str(UrlId(url)))
             case Some(c) => Success(ApiResponse(One(c), "Client retrieved successfully"))
             case None => Failure(ClientNotFound)
      ensures url != CollectionUrl && !StartsWith(url, ItemPrefix) ==> r == Failure(EndpointNotFound)
    {
      if url == CollectionUrl {
        return Success(ApiResponse(Many(clients), "Clients retrieved successfully"));
      }
      if StartsWith(url, ItemPrefix) {
        var id := UrlId(url);
        var index := FindIndex(clients, Str(id));
        if index == -1 {
          return Failure(ClientNotFound);
        }
        return Success(ApiResponse(One(clients[index]), "Client retrieved successfully"));
      }
      return Failure(EndpointNotFound);
    }

    /** `post`: on `/clients`, appends one new record numbered after the
        current length and returns it; any other URL fails and changes nothing. */
    method Post(url: string, data: Record, created: string, updated: string) returns (r: Result<ApiResponse, string>)
      modifies this
      ensures url == CollectionUrl ==>
        var c := NewClient(data, |old(clients)|, created, updated);
        clients == old(clients) + [c] && r == Success(ApiResponse(One(c), "Client created successfully"))
      ensures url != CollectionUrl ==> clients == old(clients) && r == Failure(EndpointNotFound)
    {
      if url == CollectionUrl {
        var c := NewClient(data, |clients|, created, updated);
        clients := clients + [c];
        return Success(ApiResponse(One(c), "Client created successfully"));
      }
      return Failure(EndpointNotFound);
    }

    /** `patch`: writes the merged record back at the first index holding the
        id; the length and every other index are unchanged. */
    method Patch(url: string, data: Record, now: string) returns (r: Result<ApiResponse, string>)
      modifies this
      ensures !StartsWith(url, ItemPrefix) ==> clients == old(clients) && r == Failure(EndpointNotFound)
      ensures StartsWith(url, ItemPrefix) ==>
        var i := FirstIndexWithId(old(clients), Str(UrlId(url)));
        (i == -1 ==> clients == old(clients) && r == Failure(ClientNotFound)) &&
        (i >= 0 ==>
          var c := Merged(old(clients)[i], data, now);
          clients == old(clients)[i := c] && r == Success(ApiResponse(One(c), "Client updated successfully")))
    {
      if StartsWith(url, ItemPrefix) {
        var id := UrlId(url);
        var index := FindIndex(clients, Str(id));
        if index == -1 {
          return Failure(ClientNotFound);
        }
        var c := Merged(clients[index], data, now);
        clients := clients[index := c];
        return Success(ApiResponse(One(c), "Client updated successfully"));
      }
      return Failure(EndpointNotFound);
    }

    /** `delete`: removes exactly the first record with the id, keeping the
        others in order; a missing id or another URL fails and changes nothing. */
    method Delete(url: string) returns (r: Result<(), string>)
      modifies this
      ensures !StartsWith(url, ItemPrefix) ==> clients == old(clients) && r == Failure(EndpointNotFound)
      ensures StartsWith(url, ItemPrefix) ==>
        var i := FirstIndexWithId(old(clients), Str(UrlId(url)));
        (i == -1 ==> clients == old(clients) && r == Failure(ClientNotFound)) &&
        (i >= 0 ==> clients == Sequences.RemoveAt(old(clients), i) && r == Success(()))
    {
      if StartsWith(url, ItemPrefix) {
        var id := UrlId(url);
        var index := FindIndex(clients, Str(id));
        if index == -1 {
          return Failure(ClientNotFound);
        }
        clients := Sequences.RemoveAt(clients, index);
        return Success(());
      }
      return Failure(EndpointNotFound);
    }
  }
}

=== FILE: records.dfy ===
/** JavaScript values and plain objects, as the client records of the
    dashboard are. An object is a map from property names to values, so the
    object spread `{...base, ...over}` is map union. */
module Records {
  import opened Wrappers

  datatype Value =
    | Undefined
    | Null
    | Bool(b: bool)
    | Num(n: real)
    | Str(s: string)
    | List(elements: seq<Value>)
    | Object(fields: map<string, Value>)

  type Record = map<string, Value>

  /** `r[key]`: an absent property reads as `undefined`. */
  function Get(r: Record, key: string): (v: Value)
    ensures key !in r ==> v == Undefined
    ensures key in r ==> v == r[key]
  {
    if key in r then r[key] else Undefined
  }

  /** `{...base, ...over}`: every property of either, `over` winning on a clash. */
  function Spread(base: Record, over: Record): (r: Record)
    ensures r.Keys == base.Keys + over.Keys
    ensures forall k | k in over :: r[k] == over[k]
    ensures forall k | k in base && k !in over :: r[k] == base[k]
  {
    base + over
  }

  /** The `id` property of a record. */
  function IdOf(r: Record): Value {
    Get(r, "id")
  }

  /** `items.findIndex(c => c.id === id)`: the first position holding the id, or -1. */
  function FirstIndexWithId(items: seq<Record>, id: Value): (i: int)
    ensures -1 <= i < |items|
    ensures 0 <= i ==> IdOf(items[i]) == id
    ensures forall j :: 0 <= j < |items| && (i == -1 || j < i) ==> IdOf(items[j]) != id
    decreases |items|
  {
    if items == [] then -1
    else if IdOf(items[0]) == id then 0
    else
      var j := FirstIndexWithId(items[1..], id);
      if j == -1 then -1 else j + 1
  }

  /** The same search, as the source runs it: a scan from the front. */
  method FindIndex(items: seq<Record>, id: Value) returns (index: int)
    ensures index == FirstIndexWithId(items, id)
  {
    var k := 0;
    while k < |items|
      invariant 0 <= k <= |items|
      invariant forall j :: 0 <= j < k ==> IdOf(items[j]) != id
    {
      if IdOf(items[k]) == id {
        FirstIndexIsUnique(items, id, k);
        return k;
      }
      k := k + 1;
    }
    FirstIndexIsUnique(items, id, -1);
    index := -1;
  }

  /** The properties of `FirstIndexWithId` determine it. */
  lemma FirstIndexIsUnique(items: seq<Record>, id: Value, i: int)
    requires -1 <= i < |items|
    requires 0 <= i ==> IdOf(items[i]) == id
    requires forall j :: 0 <= j < |items| && (i == -1 || j < i) ==> IdOf(items[j]) != id
    ensures i == FirstIndexWithId(items, id)
  {
  }

  /** `items.find(c => c.id === id)`: the first record holding the id, or nothing. */
  function FindById(items: seq<Record>, id: Value): (r: Option<Record>)
    ensures r.Some? <==> exists j :: 0 <= j < |items| && IdOf(items[j]) == id
    ensures r.Some? ==> r.value in items && IdOf(r.value) == id
    ensures r.Some? ==> r.value == items[FirstIndexWithId(items, id)]
  {
    var i := FirstIndexWithId(items, id);
    if i == -1 then None else Some(items[i])
  }
}

=== FILE: sequences.dfy ===
/** `Array.prototype.filter` and the order it keeps. */
module Sequences {

  /** `a` is `b` with some elements left out, the rest in the same order. */
  predicate IsSubsequence<T(==)>(a: seq<T>, b: seq<T>)
    decreases |b|
  {
    a == [] || (b != [] && ((a[0] == b[0] && IsSubsequence(a[1..], b[1..])) || IsSubsequence(a, b[1..])))
  }

  /** `s.filter(p)`: keeps, in order, exactly the elements satisfying `p`,
      each as many times as it occurs in `s` (see `FilterCounts`). */
  function Filter<T(==)>(s: seq<T>, p: T -> bool): (r: seq<T>)
    ensures IsSubsequence(r, s)
    ensures forall i :: 0 <= i < |r| ==> p(r[i])
    decreases |s|
  {
    if s == [] then []
    else
      var rest := Filter(s[1..], p);
      if p(s[0]) then
        assert ([s[0]] + rest)[1..] == rest;
        [s[0]] + rest
      else rest
  }

  /** An element satisfying `p` is kept as often as it occurs; any other is dropped. */
  lemma {:induction false} FilterCounts<T>(s: seq<T>, p: T -> bool, x: T)
    ensures multiset(Filter(s, p))[x] == if p(x) then multiset(s)[x] else 0
    decreases |s|
  {
    if s != [] {
      FilterCounts(s[1..], p, x);
      assert s == [s[0]] + s[1..];
      assert multiset(s) == multiset([s[0]]) + multiset(s[1..]);
      if p(s[0]) {
        assert multiset(Filter(s, p)) == multiset([s[0]]) + multiset(Filter(s[1..], p));
      }
    }
  }

  /** Filtering with a predicate every element satisfies changes nothing. */
  lemma {:induction false} FilterKeepsAll<T>(s: seq<T>, p: T -> bool)
    requires forall i :: 0 <= i < |s| ==> p(s[i])
    ensures Filter(s, p) == s
    decreases |s|
  {
    if s != [] {
      FilterKeepsAll(s[1..], p);
      assert [s[0]] + s[1..] == s;
    }
  }

  /** Two tests that agree on every element keep the same elements. */
  lemma {:induction false} FilterSameTest<T>(s: seq<T>, p: T -> bool, q: T -> bool)
    requires forall i :: 0 <= i < |s| ==> p(s[i]) == q(s[i])
    ensures Filter(s, p) == Filter(s, q)
    decreases |s|
  {
    if s != [] {
      FilterSameTest(s[1..], p, q);
    }
  }

  /** A subsequence is never longer than the sequence it is taken from. */
  lemma {:induction false} SubsequenceLength<T>(a: seq<T>, b: seq<T>)
    requires IsSubsequence(a, b)
    ensures |a| <= |b|
    decreases |b|
  {
    if a != [] {
      if a[0] == b[0] && IsSubsequence(a[1..], b[1..]) {
        SubsequenceLength(a[1..], b[1..]);
      } else {
        SubsequenceLength(a, b[1..]);
      }
    }
  }

  /** `s.splice(i, 1)`: the element at `i` is gone, those after it move down by one. */
  function RemoveAt<T>(s: seq<T>, i: nat): (r: seq<T>)
    requires i < |s|
    ensures |r| == |s| - 1
    ensures forall j :: 0 <= j < i ==> r[j] == s[j]
    ensures forall j :: i <= j < |r| ==> r[j] == s[j + 1]
  {
    s[..i] + s[i + 1..]
  }
}

=== FILE: text.dfy ===
/** The JavaScript string operations the dashboard relies on: `trim`,
    `split`/`join` on one separator, `includes`, `toLowerCase`, `String(n)`,
    `padStart(2, '0')` and `parseInt(s, 10)`. */
module Text {
  import opened Wrappers

  // ---------------------------------------------------------------------
  // Whitespace and trim
  // ---------------------------------------------------------------------

  /** WhiteSpace and LineTerminator code points, as `trim` and `parseInt` skip them. */
  predicate IsWhitespace(c: char) {
    c == ' ' || c == '\t' || c == '\n' || c == '\r' || c == '\U{000B}' || c == '\U{000C}'
    || c == '\U{00A0}' || c == '\U{1680}' || ('\U{2000}' <= c <= '\U{200A}')
    || c == '\U{2028}' || c == '\U{2029}' || c == '\U{202F}' || c == '\U{205F}'
    || c == '\U{3000}' || c == '\U{FEFF}'
  }

  /** `s.trimStart()`: drops the leading whitespace, keeping the rest as a suffix of `s`. */
  function TrimStart(s: string): (r: string)
    ensures |r| <= |s| && r == s[|s| - |r|..]
    ensures forall i :: 0 <= i < |s| - |r| ==> IsWhitespace(s[i])
    ensures r == [] || !IsWhitespace(r[0])
    decreases |s|
  {
    if |s| > 0 && IsWhitespace(s[0]) then TrimStart(s[1..]) else s
  }

  /** `s.trimEnd()`: drops the trailing whitespace, keeping the rest as a prefix of `s`. */
  function TrimEnd(s: string): (r: string)
    ensures |r| <= |s| && r == s[..|r|]
    ensures forall i :: |r| <= i < |s| ==> IsWhitespace(s[i])
    ensures r == [] || !IsWhitespace(r[|r| - 1])
    decreases |s|
  {
    if |s| > 0 && IsWhitespace(s[|s| - 1]) then TrimEnd(s[..|s| - 1]) else s
  }

  /** A string with no whitespace at either end. */
  predicate IsTrimmed(s: string) {
    s == [] || (!IsWhitespace(s[0]) && !IsWhitespace(s[|s| - 1]))
  }

  /** `r` occurs in `s` starting at position `k`. */
  predicate OccursAt(s: string, r: string, k: int) {
    0 <= k <= |s| - |r| && s[k..k + |r|] == r
  }

  /** `s.trim()`: a contiguous slice of `s` with no whitespace at either end,
      everything cut before and after it being whitespace. */
  function Trim(s: string): (r: string)
    ensures IsTrimmed(r)
    ensures OccursAt(s, r, |s| - |TrimStart(s)|)
    ensures forall i :: 0 <= i < |s| - |TrimStart(s)| ==> IsWhitespace(s[i])
    ensures forall i :: |s| - |TrimStart(s)| + |r| <= i < |s| ==> IsWhitespace(s[i])
  {
    TrimmedBothEnds(s);
    TrimIsSlice(s);
    TrimCutsWhitespace(s);
    TrimEnd(TrimStart(s))
  }

  lemma TrimmedBothEnds(s: string)
    ensures IsTrimmed(TrimEnd(TrimStart(s)))
  {
    TrimEndKeepsStart(TrimStart(s));
  }

  lemma TrimIsSlice(s: string)
    ensures OccursAt(s, TrimEnd(TrimStart(s)), |s| - |TrimStart(s)|)
  {
    PrefixOfSuffix(s, TrimStart(s), TrimEnd(TrimStart(s)));
  }

  lemma TrimCutsWhitespace(s: string)
    ensures forall i :: |s| - |TrimStart(s)| + |TrimEnd(TrimStart(s))| <= i < |s| ==> IsWhitespace(s[i])
  {
    var t := TrimStart(s);
    forall i | |s| - |t| + |TrimEnd(t)| <= i < |s|
      ensures IsWhitespace(s[i])
    {
      assert s[i] == t[i - (|s| - |t|)];
    }
  }

  /** Cutting the end of a text that starts without whitespace leaves a trimmed text. */
  lemma TrimEndKeepsStart(t: string)
    requires t == [] || !IsWhitespace(t[0])
    ensures IsTrimmed(TrimEnd(t))
  {
    var r := TrimEnd(t);
    if r != [] {
      assert r[0] == t[0];
    }
  }

  /** A prefix of a suffix of `s` occurs in `s` where the suffix starts. */
  lemma PrefixOfSuffix(s: string, t: string, r: string)
    requires |t| <= |s| && t == s[|s| - |t|..]
    requires |r| <= |t| && r == t[..|r|]
    ensures OccursAt(s, r, |s| - |t|)
  {
    assert s[|s| - |t|..][..|r|] == s[|s| - |t|..|s| - |t| + |r|];
  }

  lemma TrimmedIsFixpoint(s: string)
    requires IsTrimmed(s)
    ensures Trim(s) == s
  {
    assert TrimStart(s) == s;
    assert TrimEnd(s) == s;
  }

  /** Trimming twice is trimming once. */
  lemma TrimIdempotent(s: string)
    ensures Trim(Trim(s)) == Trim(s)
  {
    TrimmedIsFixpoint(Trim(s));
  }

  /** The trimmed string is empty exactly when the input is all whitespace. */
  lemma {:induction false} TrimEmptyIffBlank(s: string)
    ensures Trim(s) == [] <==> forall i :: 0 <= i < |s| ==> IsWhitespace(s[i])
  {
    var t := TrimStart(s);
    if t != [] {
      assert !IsWhitespace(s[|s| - |t|]);
    }
  }

  // ---------------------------------------------------------------------
  // split / join on a single separator character
  // ---------------------------------------------------------------------

  /** `s.split(sep)`: at least one piece, none containing the separator. */
  function Split(s: string, sep: char): (parts: seq<string>)
    ensures |parts| >= 1
    ensures forall i :: 0 <= i < |parts| ==> sep !in parts[i]
    decreases |s|
  {
    if s == [] then [[]]
    else
      var rest := Split(s[1..], sep);
      if s[0] == sep then [[]] + rest
      else [[s[0]] + rest[0]] + rest[1..]
  }

  /** `parts.join(sep)`. */
  function Join(parts: seq<string>, sep: char): string
    requires |parts| >= 1
    decreases |parts|
  {
    if |parts| == 1 then parts[0] else parts[0] + [sep] + Join(parts[1..], sep)
  }

  /** Joining the pieces of a split gives back the original string. */
  lemma {:induction false} JoinSplit(s: string, sep: char)
    ensures Join(Split(s, sep), sep) == s
    decreases |s|
  {
    if s != [] {
      JoinSplit(s[1..], sep);
      var rest := Split(s[1..], sep);
      if s[0] == sep {
        assert Split(s, sep)[1..] == rest;
      } else {
        if |rest| == 1 {
          assert Split(s, sep) == [[s[0]] + rest[0]];
        } else {
          assert Split(s, sep)[1..] == rest[1..];
          assert Join(rest, sep) == rest[0] + [sep] + Join(rest[1..], sep);
        }
      }
    }
  }

  /** Splitting at a separator between two strings splits each side apart. */
  lemma {:induction false} SplitAppend(a: string, b: string, sep: char)
    ensures Split(a + [sep] + b, sep) == Split(a, sep) + Split(b, sep)
    decreases |a|
  {
    var s := a + [sep] + b;
    if a == [] {
      assert s[1..] == b;
    } else {
      assert s[1..] == a[1..] + [sep] + b;
      SplitAppend(a[1..], b, sep);
    }
  }

  /** The first piece of a split is the text before the first separator. */
  lemma {:induction false} SplitFirstPiece(s: string, sep: char)
    ensures StartsWith(s, Split(s, sep)[0])
    ensures |Split(s, sep)[0]| == |s| || s[|Split(s, sep)[0]|] == sep
    decreases |s|
  {
    if s != [] && s[0] != sep {
      SplitFirstPiece(s[1..], sep);
    }
  }

  /** After two separator-free pieces, the third piece is the first piece of the rest. */
  lemma ThirdPiece(a: string, b: string, tail: string, sep: char)
    requires sep !in a && sep !in b
    ensures |Split(a + [sep] + b + [sep] + tail, sep)| >= 3
    ensures Split(a + [sep] + b + [sep] + tail, sep)[2] == Split(tail, sep)[0]
  {
    assert a + [sep] + b + [sep] + tail == a + [sep] + (b + [sep] + tail);
    SplitAppend(a, b + [sep] + tail, sep);
    SplitAppend(b, tail, sep);
    SplitNoSeparator(a, sep);
    SplitNoSeparator(b, sep);
  }

  /** The separator-free prefix of `s` ending at a separator or at the end is unique. */
  lemma FirstPieceUnique(s: string, sep: char, a: string, b: string)
    requires StartsWith(s, a) && sep !in a && (|a| == |s| || s[|a|] == sep)
    requires StartsWith(s, b) && sep !in b && (|b| == |s| || s[|b|] == sep)
    ensures a == b
  {
  }

  /** A string without the separator splits into itself alone. */
  lemma {:induction false} SplitNoSeparator(a: string, sep: char)
    requires sep !in a
    ensures Split(a, sep) == [a]
    decreases |a|
  {
    if a != [] {
      SplitNoSeparator(a[1..], sep);
      assert [a[0]] + a[1..] == a;
    }
  }

  /** Splitting a join of separator-free pieces gives back the pieces. */
  lemma {:induction false} SplitJoin(parts: seq<string>, sep: char)
    requires |parts| >= 1
    requires forall i :: 0 <= i < |parts| ==> sep !in parts[i]
    ensures Split(Join(parts, sep), sep) == parts
    decreases |parts|
  {
    SplitNoSeparator(parts[0], sep);
    if |parts| > 1 {
      SplitJoin(parts[1..], sep);
      SplitAppend(parts[0], Join(parts[1..], sep), sep);
      assert [parts[0]] + parts[1..] == parts;
    }
  }

  // ---------------------------------------------------------------------
  // startsWith / includes
  // ---------------------------------------------------------------------

  /** `s.startsWith(prefix)`. */
  predicate StartsWith(s: string, prefix: string) {
    |prefix| <= |s| && s[..|prefix|] == prefix
  }

  /** `s.includes(sub)`: `sub` occurs in `s` at some position. */
  predicate Includes(s: string, sub: string) {
    exists k | 0 <= k <= |s| - |sub| :: OccursAt(s, sub, k)
  }

  /** Every string includes the empty string, and includes itself. */
  lemma IncludesEmptyAndSelf(s: string)
    ensures Includes(s, [])
    ensures Includes(s, s)
  {
    assert OccursAt(s, [], 0);
    assert OccursAt(s, s, 0);
  }

  // ---------------------------------------------------------------------
  // toLowerCase
  // ---------------------------------------------------------------------

  function LowerChar(c: char): char {
    if 'A' <= c <= 'Z' then (c as int + 32) as char else c
  }

  /** `s.toLowerCase()` on the ASCII letters: same length, each character lowered. */
  function ToLower(s: string): (r: string)
    ensures |r| == |s|
    ensures forall i :: 0 <= i < |s| ==> r[i] == LowerChar(s[i])
  {
    seq(|s|, i requires 0 <= i < |s| => LowerChar(s[i]))
  }

  /** Lowering twice is lowering once. */
  lemma ToLowerIdempotent(s: string)
    ensures ToLower(ToLower(s)) == ToLower(s)
  {
  }

  // ---------------------------------------------------------------------
  // Decimal numbers: String(n), padStart(2, '0'), parseInt(s, 10)
  // ---------------------------------------------------------------------

  predicate IsDigit(c: char) {
    '0' <= c <= '9'
  }

  predicate AllDigits(s: string) {
    forall i :: 0 <= i < |s| ==> IsDigit(s[i])
  }

  function DigitChar(d: nat): (c: char)
    requires d < 10
    ensures IsDigit(c)
  {
    ('0' as int + d) as char
  }

  function DigitValue(c: char): (d: nat)
    requires IsDigit(c)
    ensures d < 10 && DigitChar(d) == c
  {
    c as int - '0' as int
  }

  /** The number a string of decimal digits denotes (leading zeros allowed). */
  function DigitsValue(s: string): nat
    requires AllDigits(s)
    decreases |s|
  {
    if s == [] then 0 else DigitsValue(s[..|s| - 1]) * 10 + DigitValue(s[|s| - 1])
  }

  /** `String(n)` for a natural number: its shortest decimal spelling. */
  function NatToString(n: nat): (s: string)
    ensures |s| >= 1 && AllDigits(s)
    ensures |s| > 1 ==> s[0] != '0'
    ensures n < 10 <==> |s| == 1
    decreases n
  {
    if n < 10 then [DigitChar(n)] else NatToString(n / 10) + [DigitChar(n % 10)]
  }

  /** Reading the decimal spelling back gives the number. */
  lemma {:induction false} NatToStringRoundTrip(n: nat)
    ensures DigitsValue(NatToString(n)) == n
    decreases n
  {
    if n >= 10 {
      NatToStringRoundTrip(n / 10);
      var s := NatToString(n);
      assert s[..|s| - 1] == NatToString(n / 10);
    }
  }

  /** Different numbers have different decimal spellings. */
  lemma NatToStringInjective(a: nat, b: nat)
    requires NatToString(a) == NatToString(b)
    ensures a == b
  {
    NatToStringRoundTrip(a);
    NatToStringRoundTrip(b);
  }

  /** Leading zeros do not change the value of a digit string. */
  lemma {:induction false} LeadingZeros(z: nat, s: string)
    requires AllDigits(s)
    ensures AllDigits(seq(z, _ => '0') + s)
    ensures DigitsValue(seq(z, _ => '0') + s) == DigitsValue(s)
    decreases z + |s|
  {
    var t := seq(z, _ => '0') + s;
    if s == [] {
      if z > 0 {
        assert t[..|t| - 1] == seq(z - 1, _ => '0') + [];
        LeadingZeros(z - 1, []);
      }
    } else {
      assert t[..|t| - 1] == seq(z, _ => '0') + s[..|s| - 1];
      LeadingZeros(z, s[..|s| - 1]);
    }
  }

  /** `s.padStart(width, '0')`. */
  function PadZeros(s: string, width: nat): (r: string)
    ensures |r| == if |s| >= width then |s| else width
    ensures r == seq(|r| - |s|, _ => '0') + s
  {
    if |s| >= width then (assert seq(0, _ => '0') + s == s; s) else seq(width - |s|, _ => '0') + s
  }

  /** `String(n).padStart(2, '0')` for 0 <= n < 100: exactly two digits that read back as n. */
  function TwoDigits(n: nat): (r: string)
    requires n < 100
    ensures |r| == 2 && AllDigits(r) && DigitsValue(r) == n
  {
    var s := NatToString(n);
    NatToStringRoundTrip(n);
    LeadingZeros(2 - |s|, s);
    PadZeros(s, 2)
  }

  /** The longest prefix of `s` made of decimal digits. */
  function DigitPrefix(s: string): (r: string)
    ensures AllDigits(r) && StartsWith(s, r)
    ensures |r| < |s| ==> !IsDigit(s[|r|])
    decreases |s|
  {
    if |s| > 0 && IsDigit(s[0]) then [s[0]] + DigitPrefix(s[1..]) else []
  }

  /** `parseInt(s, 10)`: leading whitespace is skipped, an optional sign is read,
      then the longest run of digits; `None` stands for NaN (no digit at all). */
  function ParseInt(s: string): Option<int> {
    var t := TrimStart(s);
    var negative := |t| > 0 && t[0] == '-';
    var body := if |t| > 0 && (t[0] == '-' || t[0] == '+') then t[1..] else t;
    var digits := DigitPrefix(body);
    if digits == [] then None
    else if negative then Some(-(DigitsValue(digits) as int))
    else Some(DigitsValue(digits))
  }

  /** A digit string reads as the prefix of itself. */
  lemma {:induction false} DigitPrefixOfDigits(s: string)
    requires AllDigits(s)
    ensures DigitPrefix(s) == s
    decreases |s|
  {
    if s != [] {
      DigitPrefixOfDigits(s[1..]);
    }
  }

  /** `parseInt` reads back every all-digit string as its value. */
  lemma ParseIntOfDigits(s: string)
    requires s != [] && AllDigits(s)
    ensures ParseInt(s) == Some(DigitsValue(s))
  {
    DigitPrefixOfDigits(s);
    assert TrimStart(s) == s;
  }
}

=== FILE: wrappers.dfy ===
/** Optional values and results with an error, for the places where the
    dashboard uses `undefined`/`null` or throws. */
module Wrappers {

  datatype Option<+T> = None | Some(value: T)

  datatype Result<+T, +E> = Success(value: T) | Failure(error: E)
}
